=== FILE: README.md ===
# PLMPM evaluators in Dafny

PLMPM is an oil-field planning problem. It decides which platform drills each
well (`x[i][j]`, P platforms by W wells) and which capacity tier each platform
is built at (`y[i][k]`, P platforms by K tiers). A candidate is one flat
vector of `P*W + P*K` reals: the `x` block first, row by row, then the `y`
block. The repository holds six evaluators of such a vector, written against
different optimisation libraries. This project models each of them as a pure
function or a small method over exact reals:

- `plmpm.py` (module `PlmpmPy`). Three objectives: z1 is the drilling plus
  building cost, z2 is the negated production, z3 is the environmental
  damage. It emits one constraint triplet `(g1, g2, g3)` per platform.
- `plmpm.cpp` (module `PlmpmCpp`). Integer tables. Decodes with an index
  walk, builds the block layout of constraints (W coverage entries, then P
  capacity entries, then P tier entries), and returns only minus the cost.
- `plmpm.java` (module `PlmpmJava`). The same walk and block layout, written
  into an array of the declared length `3P`.
- `plmpm-jmetal.py` (module `PlmpmJmetal`), `plmpm-pymoo-1.py` (module
  `PlmpmPymoo1`) and `plmpm-pymoo-2.py` (module `PlmpmPymoo2`). Slicing
  decoders with one negated-cost objective. The first two use the block
  layout. The last has coverage and tier entries only.

Shared modules:

- `Sums`: exact finite sums.
- `Encoding`: the vector layout, with decode and encode proved mutually
  inverse.
- `Evaluation`: the objectives and constraint entries every variant builds
  from.
- `Loops`: the accumulating loops of the C++ and Java code, proved equal to
  the sums.
- `Agreement`: how the variants relate.
- `Examples`: small candidates worked out.

Several declared counts disagree with what the evaluators return. The model
states each disagreement as a lemma and does not correct it:

- `plmpm.py` declares bounds arrays of fixed length 36.
- The C++ and Java problems declare `3P` constraints but build `W + 2P`.
- `plmpm-pymoo-2.py` declares 0 constraints and returns `W + P`.

To verify the project, run from its directory:

    dafny verify --resource-limit 2000000 --verification-time-limit 0 --warn-contradictory-assumptions *.dfy

## Model

| member | source | states |
|---|---|---|
| Encoding.Decode | plmpm.py:37-48 | slicing succeeds exactly when the vector has at least P*W + P*K entries; entry `x[i][j]` is the vector at `i*W + j` and `y[i][k]` at `P*W + i*K + k`; a shorter vector reports the needed and actual lengths |
| Encoding.Slices | plmpm-pymoo-1.py:29-37 | the block has `rows` rows of `cols` entries, entry `[i][j]` being the vector at `start + i*cols + j` |
| Encoding.SlicesAreRuns | plmpm-pymoo-1.py:29-37 | row `i` of the block is exactly the slice `v[start + i*cols .. start + (i+1)*cols]`, the slice expression the Python variants use |
| Encoding.Encode | plmpm.py:37-48 | laying a layout out row by row gives a vector of length P*W + P*K from which every entry decodes back |
| Encoding.DecodeEncode | plmpm.py:37-48 | decoding an encoded layout returns that layout |
| Encoding.EncodeDecode | plmpm.py:37-48 | encoding a decoded vector returns its first P*W + P*K entries, so entries past them are ignored |
| Encoding.DecodedFromUnique | plmpm.py:37-48 | two layouts read from the same vector are equal |
| Encoding.Locate | plmpm.py:37-48 | every position below P*W + P*K stands for one well assignment or one tier choice |
| Encoding.LocateIndexOf | plmpm.py:37-48 | distinct slots sit at distinct positions: locating a slot's position returns the slot |
| Encoding.UnitDecodes | plmpm.py:37-48 | the vector with a single 1 decodes to a layout with a single 1 in the matching cell and zeros elsewhere |
| Encoding.FlattenEntry | plmpm.cpp:30-43 | the walk order puts entry `[i][j]` at position `i*cols + j` |
| Loops.WalkBlock | plmpm.cpp:31-36 | the nested walk with one running index fills `m[i][j]` from `v[start + i*cols + j]`, ends at `start + rows*cols`, and fails exactly when that passes the vector's end |
| Loops.DecodeByIndex | plmpm.java:36-49 | the two index walks give the same layout, or the same failure, as slicing |
| Loops.ColumnSum | plmpm.cpp:48-53 | the inner `sum_x_ij +=` loop computes the sum of column `j` |
| Loops.WeightedRowSum | plmpm.cpp:57-66 | the `sum += a[j] * x[i][j]` loops compute the dot product |
| Loops.RowSum | plmpm.cpp:72-77 | the `sum_y_ik +=` loop computes the row sum |
| Loops.AccumulateWeighted | plmpm.cpp:82-86 | the double loop adds `sum_i sum_j w[i][j]*m[i][j]` to the running total |
| Loops.AccumulateCost | plmpm.cpp:80-92 | the objective loops accumulate drilling plus building cost |
| Evaluation.ShapeOf | plmpm-pymoo-1.py:14-16 | (definition) P, W and K read off the tables as `len(c)`, `len(c[0])` and `len(f[0])`, which needs both tables non-empty |
| Evaluation.Cost | plmpm.py:51-59 | (definition) z1: the sum over i, j of `c[i][j] * x[i][j]` plus the sum over i, k of `f[i][k] * y[i][k]`; its properties are stated by CostNonNegative and UnitVectorCost |
| Evaluation.NegatedProduction | plmpm.py:62-66 | (definition) z2 added up from the terms `-a[j] * x[i][j]`; NegatedProductionIsMinusProduction relates it to the production |
| Evaluation.Damage | plmpm.py:68-82 | (definition) z3: for every platform, the sum of `(DW[j] + DQ[i][j]) * x[i][j]` plus the sum of `(DO[i] + DP[i][k]) * y[i][k]`; DamageSplits and DamageNonNegative state its properties |
| Evaluation.CoverageBlock | plmpm.cpp:47-54 | (definition) one entry per well: the number of platforms serving it, minus one |
| Evaluation.CapacityBlock | plmpm.cpp:56-69 | (definition) one entry per platform: its assigned production minus its selected capacity |
| Evaluation.TierBlock | plmpm.cpp:71-78 | (definition) one entry per platform: its tier-row sum minus one |
| Evaluation.TripletConstraints | plmpm.py:84-99 | entries 3i, 3i+1, 3i+2 are g1, g2, g3 of platform i, 3n entries in all |
| Evaluation.BlockConstraints | plmpm.cpp:45-78 | W coverage slacks, then P capacity slacks, then P tier-row slacks |
| Evaluation.NegatedProductionIsMinusProduction | plmpm.py:62-66 | z2 summed from the terms `-a[j]*x[i][j]` equals minus the total production |
| Evaluation.ProductionNonNegative | plmpm.py:62-66 | with non-negative production and vector, z2 is at most zero |
| Evaluation.ProductionPositive | plmpm.py:62-66 | with positive production, any positive assignment makes z2 negative |
| Evaluation.CostNonNegative | plmpm.py:51-59 | with non-negative cost tables and vector, z1 is non-negative |
| Evaluation.DamageSplits | plmpm.py:68-82 | z3 equals well damage weighted by assignments, plus connection damage, plus platform damage weighted by tiers selected, plus tier damage |
| Evaluation.PlatformDamageSplits | plmpm.py:69-82 | one platform's damage splits into its four dot-product parts |
| Evaluation.WellDamageSplits | plmpm.py:71-76 | the sum of `(DW[j] + DQ[i][j]) * x[i][j]` is two dot products |
| Evaluation.TierDamageSplits | plmpm.py:77-82 | the sum of `(DO[i] + DP[i][k]) * y[i][k]` is `DO[i]` times the tiers selected plus a dot product |
| Evaluation.DamageNonNegative | plmpm.py:68-82 | with non-negative damage tables and vector, z3 is non-negative |
| Evaluation.SingleTierCapacity | plmpm.py:92-95 | when a platform selects exactly tier k, g3 is at most zero iff its production is at most `b[k]` |
| Evaluation.RowAndCoverageTotalsAgree | plmpm.py:87 | the g1 entries of plmpm.py add up to the coverage entries of the block layout plus W minus P: both count every assignment once, less one per row or per column |
| Evaluation.TripletMatchesBlock | plmpm.cpp:56-78 | the triplet layout and the block layout hold the same capacity and tier-row values for each platform |
| Evaluation.UnitVectorCost | plmpm.py:51-59 | the cost is linear: the unit vector of an assignment costs `c[i][j]`, that of a tier `f[i][k]` |
| Evaluation.SatisfiedConcat | plmpm-pymoo-2.py:47-52 | a concatenation has every entry at most zero iff both parts do |
| Evaluation.BlockSatisfiedIff | plmpm-pymoo-1.py:39-54 | the block layout is satisfied iff every well is served at most once, every platform's production fits its selected capacity, and every platform selects at most one tier |
| Evaluation.CoverageAndTierSatisfiedIff | plmpm-pymoo-2.py:47-52 | coverage plus tier entries are satisfied iff every well is served at most once and every platform selects at most one tier |
| PlmpmPy.Declare | plmpm.py:16-22 | P*W + P*K variables, 3 objectives, 3P constraints, bounds arrays of length 36 filled with 0 and 1 |
| PlmpmPy.BoundsFitIff | plmpm.py:17-21 | the bounds arrays match the variable count iff P*(W+K) is 36 |
| PlmpmPy.Evaluate | plmpm.py:36-102 | succeeds iff the vector is long enough and there is a platform; a short vector fails with the lengths, and with no platforms the empty constraint list makes `np.column_stack` fail; F has the 3 declared objectives and G the 3P declared constraints |
| PlmpmPy.Objectives | plmpm.py:51-82 | F is (cost, minus production, damage split into its four parts) |
| PlmpmPy.Constraints | plmpm.py:84-99 | G[3i], G[3i+1], G[3i+2] are the well-row sum minus one, the tier-row sum minus one, and production minus selected capacity |
| PlmpmPy.DependsOnlyOn | plmpm.py:51-99 | z1 reads only c and f, z2 only a, z3 only the damage tables, G only a and b |
| PlmpmPy.ZeroVector | plmpm.py:36-102 | the all-zero vector scores (0, 0, 0), and every platform's triplet is (-1, -1, 0) |
| PlmpmPy.ZeroLayoutSums | plmpm.py:51-82 | an all-zero layout has zero cost, production and damage |
| PlmpmCpp.BuildConstraints | plmpm.cpp:45-78 | the three push loops build exactly the block layout |
| PlmpmCpp.PushCoverage | plmpm.cpp:47-54 | the first loop appends the coverage slack of every well in order |
| PlmpmCpp.PushCapacity | plmpm.cpp:56-69 | the second loop appends every platform's production minus capacity |
| PlmpmCpp.PushTiers | plmpm.cpp:71-78 | the third loop appends every platform's tier-row slack |
| PlmpmCpp.Fitness | plmpm.cpp:22-95 | returns the one-element vector of minus the cost iff the vector is long enough; the constraints are discarded |
| PlmpmCpp.ConstraintCountMatchesIff | plmpm.cpp:19-20 | the built constraint vector has the declared `3 * c.size()` entries iff W == P |
| PlmpmCpp.UpperBounds | plmpm.cpp:97-103 | one bound of 1.0 per variable |
| PlmpmCpp.LowerBounds | plmpm.cpp:105-111 | one bound of 0.0 per variable |
| PlmpmCpp.WithinBoundsDecodes | plmpm.cpp:97-111 | every vector within the bounds decodes, and its cost is non-negative when the tables are |
| PlmpmJava.Evaluate | plmpm.java:30-100 | short input fails; with W > P the first write past the 3P-entry array fails at index 3P; otherwise objective 0 is minus the cost, the first W+2P entries are the block layout and the rest stay 0 |
| PlmpmJava.WriteCoverage | plmpm.java:53-60 | writes the coverage slacks at 0..W-1, failing iff W exceeds the array |
| PlmpmJava.WriteCapacity | plmpm.java:62-73 | writes the capacity slacks at W..W+P-1, failing iff W+P exceeds the array |
| PlmpmJava.WriteTiers | plmpm.java:75-82 | writes the tier-row slacks at W+P..W+2P-1, failing iff W+2P exceeds the array |
| PlmpmJava.NewSolution | plmpm.java:102-107 | one objective, 3P constraints, P*W + P*K variables in [0, 1] |
| PlmpmJmetal.Init | plmpm-jmetal.py:13-28 | P*W + P*K variables with lower bounds 0 and upper bounds 1 |
| PlmpmJmetal.Evaluate | plmpm-jmetal.py:39-85 | succeeds iff the vector is long enough; objective is minus the cost and the constraints are in block layout |
| PlmpmJmetal.UnitVectorObjective | plmpm-jmetal.py:72-82 | the unit vector of an assignment scores `-c[i][j]`, that of a tier `-f[i][k]` |
| PlmpmPymoo1.Declare | plmpm-pymoo-1.py:13-18 | P*W + P*K variables, 1 objective, 3P constraints, bounds 0 and 1 |
| PlmpmPymoo1.Evaluate | plmpm-pymoo-1.py:24-67 | succeeds iff the vector is long enough and there is at least one variable; a short vector fails with the lengths, and with no variables the objective is the integer 0 and `reshape` fails; F is one entry, minus the cost; G is in block layout |
| PlmpmPymoo1.ConstraintCountIff | plmpm-pymoo-1.py:18 | G has the declared 3P entries iff W == P |
| PlmpmPymoo1.FeasibleIff | plmpm-pymoo-1.py:39-54 | G is satisfied iff coverage, capacity and single-tier conditions all hold |
| PlmpmPymoo2.Declare | plmpm-pymoo-2.py:12-17 | P*W + P*K variables, 1 objective, 0 constraints, bounds 0 and 1 |
| PlmpmPymoo2.Evaluate | plmpm-pymoo-2.py:21-55 | succeeds iff the vector is long enough and there is at least one variable, failing as the first pymoo variant does otherwise; F is minus the cost; G is W coverage entries then P tier entries |
| PlmpmPymoo2.ConstraintCountNeverMatches | plmpm-pymoo-2.py:17 | the returned G always has more entries than the 0 declared |
| PlmpmPymoo2.FeasibleIff | plmpm-pymoo-2.py:46-52 | G is satisfied iff every well is served at most once and every platform selects at most one tier; capacity plays no part |
| Agreement.JmetalMatchesPymoo1 | plmpm-jmetal.py:39-85 | the first pymoo evaluator succeeds iff jMetal does and there is at least one variable, and then the two agree on objective and constraints |
| Agreement.SingleObjectiveIsMinusZ1 | plmpm-pymoo-1.py:56-66 | the single objective of jMetal, and of both pymoo variants when there is a variable, is minus z1 of plmpm.py |
| Agreement.CppObjectiveIsMinusZ1 | plmpm.cpp:80-94 | the pagmo fitness succeeds iff plmpm.py's evaluation over the same tables read as reals does, and is then the one-element vector of minus z1 |
| Agreement.JavaObjectiveIsMinusZ1 | plmpm.java:84-98 | the Java evaluation succeeds iff plmpm.py's does and W <= P, and its objective is then minus z1 |
| Agreement.Pymoo2DropsCapacity | plmpm-pymoo-2.py:47-52 | the two pymoo variants fail on the same vectors, and the second one's G is the first one's with the P capacity entries removed |
| Agreement.TripletAndBlockShareEntries | plmpm.py:84-99 | plmpm.py's G[3i+1] and G[3i+2] equal entries W+P+i and W+i of jMetal's block layout |
| Examples.DecodesBothWells | plmpm.py:37-48 | the vector (1, 1, 1) with one platform, two wells and one tier assigns both wells and builds the tier |
| Examples.TripletOfBothWells | plmpm.py:84-99 | that candidate's triplet is (1, 0, a0 + a1 - b0) |
| Examples.AtCapacity | plmpm.py:84-99 | with production 10 per well and capacity 20 the triplet is (1, 0, 0) |
| Examples.OverCapacity | plmpm.py:92-95 | with capacity 15 the capacity entry is 5 |
| Examples.BlockOfBothWells | plmpm-pymoo-1.py:39-54 | the block layout of the same candidate is (0, 0, a0 + a1 - b0, 0) |
| Examples.BlockAtCapacity | plmpm-pymoo-1.py:39-54 | at capacity 20 the block layout is all zeros |

## Left out

- The optimisation runs: NSGA-II, SADE, the archipelago, termination criteria and result handling. These are library calls that the model cannot see.
- Plotting and printing.
- The solver script, the parameter file and the third pymoo script. They are not part of this model.
- Floating point. Every sum is over exact reals, so rounding and the order of additions are not modelled.
- Batch evaluation. Each evaluator is modelled on one candidate, as the elementwise problems receive them.
- Out-of-range reads. The C++ code reads past the vector's end (undefined behaviour) and Java throws. Python's slicing of a short list would silently give short rows, and later indexing raises. All of these are modelled as one failure that records the needed and actual lengths: `ShortVector` for the C++ and jMetal evaluators, `ReadPastEnd(ShortVector(..))` for plmpm.py and the pymoo ones, and `ShortInput` for Java.
- Encoding.Decode: longer vectors are accepted and their extra entries ignored, as every decoder does. The requirement of exactly P*W + P*K entries is not enforced.
- PlmpmPy.Objectives: z1 is written in the source as two flat generator sums (over `c*x` and over `f*y`) and z2 as one. They are modelled as row-by-row sums, which are equal over exact reals. z3 is modelled as written: per platform, one list sum over the wells and one over the tiers.
- PlmpmJmetal.Init: the counts of variables, objectives and constraints are all commented out of the base-class call. `n_var` is a local that only sizes the bounds arrays, and the library defaults apply to the three counts. Those defaults are not modelled.
- Table dimensions: each table must have at least P rows, each covering the columns read. This is a precondition (`Valid`), and the IndexError a short table would raise is not modelled. With no tiers (K = 0) a building-cost table still needs P rows, although none of them is read.
- PlmpmCpp.Fitness: the integer tables enter products as doubles (`as real`), so integer overflow cannot arise and is not modelled.
- PlmpmJava: the class names no superclass, although it calls `super(1, 3 * c.length)`, marks methods `@Override` and calls `getNumConstraints()`. The model reads it as an MOEA Framework problem and takes `getNumConstraints()` to be `3 * c.length`, which fixes the length of the constraint array.
- The base-class constructors of pymoo, pagmo and the MOEA Framework are represented only by the counts and bounds passed to them. jMetal's base class is passed nothing; only the bounds arrays set after it are modelled. The `get_name` and `get_number_of_*` accessors are not modelled.

=== FILE: agreement.dfy ===
/** How the six evaluators relate when given the same tables and the same
    decision vector. */
module Agreement {
  import opened Sums
  import opened Encoding
  import opened Results
  import opened Evaluation
  import PlmpmPy
  import PlmpmCpp
  import PlmpmJava
  import PlmpmJmetal
  import PlmpmPymoo1
  import PlmpmPymoo2

  /** The jMetal and first pymoo variants compute the same objective and
      the same constraint vector. Both fail on a vector too short for the
      slices; the pymoo variant also fails when there are no variables,
      where jMetal negates the integer 0 without complaint. */
  lemma JmetalMatchesPymoo1(c: Matrix, f: Matrix, a: seq<real>, b: seq<real>, v: seq<real>)
    requires TablesValid(c, f, a, b)
    ensures var rj := PlmpmJmetal.Evaluate(PlmpmJmetal.Problem(c, f, a, b), v);
            var rp := PlmpmPymoo1.Evaluate(PlmpmPymoo1.Problem(c, f, a, b), v);
            && (rp.Success? <==> rj.Success? && ShapeOf(c, f).VarCount() > 0)
            && (rp.Success? ==>
                  && rj.value.objective == rp.value.objectives[0]
                  && rj.value.constraints == rp.value.constraints)
  {
  }

  /** The single objective of the derived-shape variants is minus z1 of
      the three-objective evaluator, whenever that evaluator is built with
      the shape the tables imply; the pymoo variants need at least one
      variable to return an objective at all. */
  lemma SingleObjectiveIsMinusZ1(p: PlmpmPy.Problem, v: seq<real>)
    requires PlmpmPy.Valid(p) && |p.c| > 0 && |p.f| > 0 && p.shape == ShapeOf(p.c, p.f)
    requires |v| >= p.shape.VarCount()
    ensures var z1 := PlmpmPy.Evaluate(p, v).value.objectives[0];
            PlmpmJmetal.Evaluate(PlmpmJmetal.Problem(p.c, p.f, p.a, p.b), v).value.objective == -z1
    ensures var z1 := PlmpmPy.Evaluate(p, v).value.objectives[0];
            p.shape.VarCount() > 0 ==>
              && PlmpmPymoo1.Evaluate(PlmpmPymoo1.Problem(p.c, p.f, p.a, p.b), v).value.objectives[0] == -z1
              && PlmpmPymoo2.Evaluate(PlmpmPymoo2.Problem(p.c, p.f), v).value.objectives[0] == -z1
  {
  }

  /** The pagmo fitness of plmpm.cpp is minus z1 of the three-objective
      evaluator built over the same tables read as reals, and it succeeds
      on exactly the same vectors. */
  method CppObjectiveIsMinusZ1(p: PlmpmCpp.Problem, q: PlmpmPy.Problem, x: seq<real>)
    returns (r: Result<seq<real>, DecodeError>)
    requires PlmpmCpp.Valid(p) && PlmpmPy.Valid(q)
    requires q.c == PlmpmCpp.RealMatrix(p.c) && q.f == PlmpmCpp.RealMatrix(p.f)
    requires q.shape == PlmpmCpp.ShapeOfProblem(p)
    ensures var rq := PlmpmPy.Evaluate(q, x);
            && (r.Success? <==> rq.Success?)
            && (r.Success? ==> r.value == [-rq.value.objectives[0]])
  {
    r := PlmpmCpp.Fitness(p, x);
  }

  /** The objective `evaluate` of plmpm.java stores is minus z1 of the
      three-objective evaluator over the same tables; it succeeds where
      that evaluator does and there are no more wells than platforms. */
  method JavaObjectiveIsMinusZ1(p: PlmpmJava.Problem, q: PlmpmPy.Problem, x: seq<real>)
    returns (r: Result<PlmpmJava.Solution, PlmpmJava.EvalError>)
    requires PlmpmJava.Valid(p) && PlmpmPy.Valid(q)
    requires q.c == p.c && q.f == p.f && q.shape == PlmpmJava.ShapeOfProblem(p)
    ensures var rq := PlmpmPy.Evaluate(q, x);
            && (r.Success? <==> rq.Success? && q.shape.wells <= q.shape.platforms)
            && (r.Success? ==> r.value.objective == -rq.value.objectives[0])
  {
    r := PlmpmJava.Evaluate(p, x);
  }

  /** The second pymoo variant's G is the first one's with the capacity
      entries (positions W to W + P - 1) removed; the two fail on the same
      vectors. */
  lemma Pymoo2DropsCapacity(c: Matrix, f: Matrix, a: seq<real>, b: seq<real>, v: seq<real>)
    requires TablesValid(c, f, a, b)
    ensures var sh := ShapeOf(c, f);
            var r1 := PlmpmPymoo1.Evaluate(PlmpmPymoo1.Problem(c, f, a, b), v);
            var r2 := PlmpmPymoo2.Evaluate(PlmpmPymoo2.Problem(c, f), v);
            && (r1.Success? <==> r2.Success?)
            && (r1.Success? ==>
                  r2.value.constraints
                  == r1.value.constraints[..sh.wells] + r1.value.constraints[sh.wells + sh.platforms..])
  {
    var sh := ShapeOf(c, f);
    if |v| >= sh.VarCount() && sh.VarCount() > 0 {
      var d := Decode(v, sh).value;
      var cov, cap, tier := CoverageBlock(d.x, sh), CapacityBlock(a, b, d, sh), TierBlock(d.y);
      var G1 := cov + cap + tier;
      assert G1[..sh.wells] == cov;
      assert G1[sh.wells + sh.platforms..] == tier;
    }
  }

  /** The triplet layout of plmpm.py and the block layout share the
      capacity and tier-row entries of every platform, at positions
      3i + 2 and 3i + 1 against W + i and W + P + i. */
  lemma TripletAndBlockShareEntries(p: PlmpmPy.Problem, v: seq<real>, i: nat)
    requires PlmpmPy.Valid(p) && |p.c| > 0 && |p.f| > 0 && p.shape == ShapeOf(p.c, p.f)
    requires |v| >= p.shape.VarCount() && i < p.shape.platforms
    ensures var G := PlmpmPy.Evaluate(p, v).value.constraints;
            var H := PlmpmJmetal.Evaluate(PlmpmJmetal.Problem(p.c, p.f, p.a, p.b), v).value.constraints;
            var W, P := p.shape.wells, p.shape.platforms;
            G[3 * i + 1] == H[W + P + i] && G[3 * i + 2] == H[W + i]
  {
    var d := Decode(v, p.shape).value;
    var H := PlmpmJmetal.Evaluate(PlmpmJmetal.Problem(p.c, p.f, p.a, p.b), v).value.constraints;
    assert H[p.shape.wells + i] == Dot(p.a, d.x[i]) - Dot(p.b, d.y[i]);
    assert H[p.shape.wells + p.shape.platforms + i] == Sum(d.y[i]) - 1.0;
    PlmpmPy.Constraints(p, v, i);
  }
}

=== FILE: encoding.dfy ===
/** The flat decision vector and its row-major split into the well
    assignment matrix `x` (platform x well) and the capacity-tier selection
    matrix `y` (platform x tier). The `y` block starts at offset P*W. */
module Encoding {
  import opened Results
  import opened Sums

  /** P platforms, W wells and K capacity tiers. */
  datatype Shape = Shape(platforms: nat, wells: nat, capacities: nat) {

    /** Length of the assignment block. */
    function XCount(): nat {
      platforms * wells
    }

    /** Length of the whole decision vector, P*W + P*K. */
    function VarCount(): nat {
      platforms * wells + platforms * capacities
    }

    /** Position of `x[i][j]` in the vector. */
    function XIndex(i: nat, j: nat): (t: nat)
      requires i < platforms && j < wells
      ensures t < XCount()
    {
      RowMajorBound(i, j, platforms, wells);
      RowMajor(i, j, wells)
    }

    /** Position of `y[i][k]` in the vector. */
    function YIndex(i: nat, k: nat): (t: nat)
      requires i < platforms && k < capacities
      ensures XCount() <= t < VarCount()
    {
      RowMajorBound(i, k, platforms, capacities);
      XCount() + RowMajor(i, k, capacities)
    }
  }

  /** The decoded matrices of one candidate. */
  datatype Layout = Layout(x: Matrix, y: Matrix)

  datatype DecodeError = ShortVector(expected: nat, actual: nat)

  predicate Fits(d: Layout, sh: Shape) {
    && IsMatrix(d.x, sh.platforms, sh.wells)
    && IsMatrix(d.y, sh.platforms, sh.capacities)
  }

  /** Every entry of `d` is the vector entry at its row-major position. */
  predicate DecodedFrom(d: Layout, v: seq<real>, sh: Shape)
    requires Fits(d, sh) && |v| >= sh.VarCount()
  {
    && (forall i, j :: 0 <= i < sh.platforms && 0 <= j < sh.wells ==>
          d.x[i][j] == v[sh.XIndex(i, j)])
    && (forall i, k :: 0 <= i < sh.platforms && 0 <= k < sh.capacities ==>
          d.y[i][k] == v[sh.YIndex(i, k)])
  }

  lemma {:induction false} MulMonotone(a: nat, b: nat, c: nat)
    requires a <= b
    ensures a * c <= b * c
    decreases c
  {
    if c > 0 {
      MulMonotone(a, b, c - 1);
      assert a * c == a * (c - 1) + a;
      assert b * c == b * (c - 1) + b;
    }
  }

  /** Position of entry `[i][j]` when rows of `cols` entries are laid
      out one after another. */
  function RowMajor(i: nat, j: nat, cols: nat): nat {
    i * cols + j
  }

  lemma RowMajorBound(i: nat, j: nat, rows: nat, cols: nat)
    requires i < rows && j < cols
    ensures RowMajor(i, j, cols) < rows * cols
    ensures (i + 1) * cols <= rows * cols
  {
    MulMonotone(i + 1, rows, cols);
    assert (i + 1) * cols == i * cols + cols;
  }

  lemma AllRowMajorBelow(rows: nat, cols: nat)
    ensures forall i, j :: 0 <= i < rows && 0 <= j < cols ==> RowMajor(i, j, cols) < rows * cols
  {
    forall i, j | 0 <= i < rows && 0 <= j < cols
      ensures RowMajor(i, j, cols) < rows * cols
    {
      RowMajorBound(i, j, rows, cols);
    }
  }

  /** Row `i` of `m` is the slice `v[start + i * cols .. start + (i + 1) * cols]`. */
  predicate RowsAreRuns(m: Matrix, v: seq<real>, start: nat, rows: nat, cols: nat)
    requires |m| == rows
  {
    forall i :: 0 <= i < rows ==>
      && start + (i + 1) * cols <= |v|
      && m[i] == v[start + i * cols .. start + (i + 1) * cols]
  }

  /** `rows` consecutive slices of `cols` entries each, starting at `start`;
      SlicesAreRuns states that row `i` is the slice itself. */
  function Slices(v: seq<real>, start: nat, rows: nat, cols: nat): (m: Matrix)
    requires start + rows * cols <= |v|
    ensures IsMatrix(m, rows, cols)
    ensures forall i, j :: 0 <= i < rows && 0 <= j < cols ==>
              start + RowMajor(i, j, cols) < |v| && m[i][j] == v[start + RowMajor(i, j, cols)]
  {
    AllRowMajorBelow(rows, cols);
    seq(rows, i requires 0 <= i < rows =>
      seq(cols, j requires 0 <= j < cols => v[start + RowMajor(i, j, cols)]))
  }

  /** Row `i` of the slices is `v[start + i * cols .. start + (i + 1) * cols]`,
      the Python slice expression itself. */
  lemma SlicesAreRuns(v: seq<real>, start: nat, rows: nat, cols: nat)
    requires start + rows * cols <= |v|
    ensures RowsAreRuns(Slices(v, start, rows, cols), v, start, rows, cols)
  {
    var m := Slices(v, start, rows, cols);
    forall i | 0 <= i < rows
      ensures start + (i + 1) * cols <= |v|
      ensures m[i] == v[start + i * cols .. start + (i + 1) * cols]
    {
      MulMonotone(i + 1, rows, cols);
      assert (i + 1) * cols == i * cols + cols;
      forall j | 0 <= j < cols
        ensures m[i][j] == v[start + i * cols .. start + (i + 1) * cols][j]
      {
      }
    }
  }

  /** Splits the vector into rows by slicing, as the Python variants do
      with `x[i * W : (i + 1) * W]` and the offset slices for `y`. A vector
      shorter than P*W + P*K makes some read fail; a longer one has its tail
      ignored. */
  function Decode(v: seq<real>, sh: Shape): (r: Result<Layout, DecodeError>)
    ensures r.Success? <==> |v| >= sh.VarCount()
    ensures r.Failure? ==> r.error == ShortVector(sh.VarCount(), |v|)
    ensures r.Success? ==> Fits(r.value, sh) && DecodedFrom(r.value, v, sh)
  {
    if |v| < sh.VarCount() then
      Failure(ShortVector(sh.VarCount(), |v|))
    else
      var P, W, K := sh.platforms, sh.wells, sh.capacities;
      Success(Layout(Slices(v, 0, P, W), Slices(v, P * W, P, K)))
  }

  /** The rows of a `rows` x `cols` matrix one after another: entry `t`
      is row `t / cols`, column `t % cols`. */
  function Flatten(m: Matrix, rows: nat, cols: nat): (f: seq<real>)
    requires IsMatrix(m, rows, cols)
    ensures |f| == rows * cols
  {
    seq(rows * cols, t requires 0 <= t < rows * cols =>
      DivBound(t, rows, cols);
      m[t / cols][t % cols])
  }

  lemma FlattenEntry(m: Matrix, rows: nat, cols: nat, i: nat, j: nat)
    requires IsMatrix(m, rows, cols) && i < rows && j < cols
    ensures RowMajor(i, j, cols) < rows * cols
    ensures Flatten(m, rows, cols)[RowMajor(i, j, cols)] == m[i][j]
  {
    RowMajorBound(i, j, rows, cols);
    DivModUnique(i * cols + j, i, j, cols);
  }

  lemma FlattenIndex(m: Matrix, rows: nat, cols: nat)
    requires IsMatrix(m, rows, cols)
    ensures forall i, j :: 0 <= i < rows && 0 <= j < cols ==>
              RowMajor(i, j, cols) < rows * cols && Flatten(m, rows, cols)[RowMajor(i, j, cols)] == m[i][j]
  {
    forall i, j | 0 <= i < rows && 0 <= j < cols
      ensures RowMajor(i, j, cols) < rows * cols && Flatten(m, rows, cols)[RowMajor(i, j, cols)] == m[i][j]
    {
      FlattenEntry(m, rows, cols, i, j);
    }
  }

  /** Lays the two matrices out as one decision vector. */
  function Encode(d: Layout, sh: Shape): (v: seq<real>)
    requires Fits(d, sh)
    ensures |v| == sh.VarCount()
    ensures DecodedFrom(d, v, sh)
  {
    FlattenIndex(d.x, sh.platforms, sh.wells);
    FlattenIndex(d.y, sh.platforms, sh.capacities);
    Flatten(d.x, sh.platforms, sh.wells) + Flatten(d.y, sh.platforms, sh.capacities)
  }

  /** Two layouts read from the same vector are the same layout. */
  lemma DecodedFromUnique(d: Layout, e: Layout, v: seq<real>, sh: Shape)
    requires Fits(d, sh) && Fits(e, sh) && |v| >= sh.VarCount()
    requires DecodedFrom(d, v, sh) && DecodedFrom(e, v, sh)
    ensures d == e
  {
    forall i | 0 <= i < sh.platforms
      ensures d.x[i] == e.x[i] && d.y[i] == e.y[i]
    {
    }
  }

  /** Decoding an encoded layout gives it back. */
  lemma DecodeEncode(d: Layout, sh: Shape)
    requires Fits(d, sh)
    ensures Decode(Encode(d, sh), sh) == Success(d)
  {
    var v := Encode(d, sh);
    DecodedFromUnique(Decode(v, sh).value, d, v, sh);
  }

  /** The slot a vector position stands for. */
  datatype Slot = Assignment(platform: nat, well: nat) | Tier(platform: nat, tier: nat)

  predicate ValidSlot(sh: Shape, s: Slot) {
    match s
    case Assignment(i, j) => i < sh.platforms && j < sh.wells
    case Tier(i, k) => i < sh.platforms && k < sh.capacities
  }

  function IndexOf(sh: Shape, s: Slot): nat
    requires ValidSlot(sh, s)
  {
    match s
    case Assignment(i, j) => sh.XIndex(i, j)
    case Tier(i, k) => sh.YIndex(i, k)
  }

  lemma DivBound(t: nat, q: nat, n: nat)
    requires n > 0 && t < q * n
    ensures t / n < q
  {
    if t / n >= q {
      MulMonotone(q, t / n, n);
    }
  }

  lemma DivModUnique(t: nat, q: nat, r: nat, n: nat)
    requires r < n && t == q * n + r
    ensures t / n == q && t % n == r
  {
    var q', r' := t / n, t % n;
    assert q' * n + r' == q * n + r;
    if q' < q {
      MulMonotone(q' + 1, q, n);
    } else if q < q' {
      MulMonotone(q + 1, q', n);
    }
  }

  /** Every position below P*W + P*K stands for exactly one slot. */
  function Locate(sh: Shape, t: nat): (s: Slot)
    requires t < sh.VarCount()
    ensures ValidSlot(sh, s) && IndexOf(sh, s) == t
  {
    var P, W, K := sh.platforms, sh.wells, sh.capacities;
    if t < P * W then
      assert W > 0;
      DivBound(t, P, W);
      Assignment(t / W, t % W)
    else
      var u := t - P * W;
      assert K > 0;
      DivBound(u, P, K);
      Tier(u / K, u % K)
  }

  /** The positions of distinct slots are distinct: together with `Locate`
      this makes slot-to-position a bijection onto [0, P*W + P*K), so the
      x block and the y block are disjoint and cover the vector. */
  lemma LocateIndexOf(sh: Shape, s: Slot)
    requires ValidSlot(sh, s)
    ensures Locate(sh, IndexOf(sh, s)) == s
  {
    match s
    case Assignment(i, j) =>
      DivModUnique(i * sh.wells + j, i, j, sh.wells);
    case Tier(i, k) =>
      DivModUnique(i * sh.capacities + k, i, k, sh.capacities);
  }

  /** Encoding what was decoded gives back the first P*W + P*K entries. */
  lemma EncodeDecode(v: seq<real>, sh: Shape)
    requires |v| >= sh.VarCount()
    ensures Encode(Decode(v, sh).value, sh) == v[..sh.VarCount()]
  {
    var d := Decode(v, sh).value;
    var w := Encode(d, sh);
    forall t | 0 <= t < sh.VarCount()
      ensures w[t] == v[t]
    {
      var s := Locate(sh, t);
    }
  }

  /** The vector of length `n` with a single 1 at position `t`. */
  function Unit(n: nat, t: nat): seq<real> {
    seq(n, k => if k == t then 1.0 else 0.0)
  }

  /** Decoding the unit vector of a slot sets exactly that slot's cell:
      the other matrix is all zero. */
  lemma UnitDecodes(sh: Shape, s: Slot)
    requires ValidSlot(sh, s)
    ensures var r := Decode(Unit(sh.VarCount(), IndexOf(sh, s)), sh);
            && r.Success?
            && (s.Assignment? ==> SingleOne(r.value.x, s.platform, s.well) && ZeroMatrix(r.value.y))
            && (s.Tier? ==> ZeroMatrix(r.value.x) && SingleOne(r.value.y, s.platform, s.tier))
  {
    var t := IndexOf(sh, s);
    var d := Decode(Unit(sh.VarCount(), t), sh).value;
    LocateIndexOf(sh, s);
    forall i, j | 0 <= i < sh.platforms && 0 <= j < sh.wells
      ensures d.x[i][j] == (if s == Assignment(i, j) then 1.0 else 0.0)
    {
      LocateIndexOf(sh, Assignment(i, j));
    }
    forall i, k | 0 <= i < sh.platforms && 0 <= k < sh.capacities
      ensures d.y[i][k] == (if s == Tier(i, k) then 1.0 else 0.0)
    {
      LocateIndexOf(sh, Tier(i, k));
    }
  }
}

=== FILE: evaluation.dfy ===
/** The objectives and constraint entries shared by every variant of the
    evaluator, stated over a decoded layout. */
module Evaluation {
  import opened Sums
  import opened Encoding

  /** Drilling costs `c` (platform x well) and building costs `f`
      (platform x tier) can be read wherever the layout needs them. */
  predicate CostTablesCover(c: Matrix, f: Matrix, sh: Shape) {
    Covers(c, sh.platforms, sh.wells) && Covers(f, sh.platforms, sh.capacities)
  }

  /** Well production `a` and tier capacity `b`. */
  predicate CapacityTablesCover(a: seq<real>, b: seq<real>, sh: Shape) {
    |a| >= sh.wells && |b| >= sh.capacities
  }

  /** Environmental damage per well `dw`, per connection `dq`, per platform
      `dO` and per platform tier `dp` (DW, DQ, DO and DP in plmpm.py). */
  predicate DamageTablesCover(dw: seq<real>, dq: Matrix, dO: seq<real>, dp: Matrix, sh: Shape) {
    && |dw| >= sh.wells
    && Covers(dq, sh.platforms, sh.wells)
    && |dO| >= sh.platforms
    && Covers(dp, sh.platforms, sh.capacities)
  }

  /** The shape the single-objective variants read off their tables:
      P = len(c), W = len(c[0]), K = len(f[0]). Reading `c[0]` and `f[0]`
      needs both tables non-empty. */
  function ShapeOf(c: Matrix, f: Matrix): Shape
    requires |c| > 0 && |f| > 0
  {
    Shape(|c|, |c[0]|, |f[0]|)
  }

  /** Tables a single-objective variant can evaluate with. */
  predicate CostTablesValid(c: Matrix, f: Matrix) {
    |c| > 0 && |f| > 0 && CostTablesCover(c, f, ShapeOf(c, f))
  }

  predicate TablesValid(c: Matrix, f: Matrix, a: seq<real>, b: seq<real>) {
    CostTablesValid(c, f) && CapacityTablesCover(a, b, ShapeOf(c, f))
  }

  /** What a pymoo problem declares to its library: numbers of variables,
      objectives and constraints, and the variable bounds. */
  datatype Declaration = Declaration(nVar: nat, nObj: nat, nConstr: nat,
                                     lower: seq<real>, upper: seq<real>)

  /** The objective vector `F` and constraint vector `G` of one candidate. */
  datatype Outputs = Outputs(objectives: seq<real>, constraints: seq<real>)

  /** Why an evaluation of a numpy-based variant raises: a slice that ends
      past the decision vector is indexed, `np.column_stack` is handed an
      empty constraint list (no platforms), or `reshape` is called on an
      objective that stayed the Python integer 0 because neither cost sum
      had a term (no variables). Whenever a sum has a term, it multiplies
      an entry of the numpy decision vector and so yields a numpy scalar. */
  datatype NumpyError = ReadPastEnd(cause: DecodeError) | EmptyColumnStack | IntegerObjective

  predicate NonNegativeMatrix(m: Matrix) {
    forall i :: 0 <= i < |m| ==> NonNegative(m[i])
  }

  predicate NonNegativeLayout(d: Layout) {
    NonNegativeMatrix(d.x) && NonNegativeMatrix(d.y)
  }

  /** Drilling plus building cost, z1 in plmpm.py and the negated single
      objective of the other variants. */
  function Cost(c: Matrix, f: Matrix, d: Layout, sh: Shape): real
    requires Fits(d, sh) && CostTablesCover(c, f, sh)
  {
    WeightedTotal(c, d.x) + WeightedTotal(f, d.y)
  }

  /** Total production `sum_i sum_j a[j] * x[i][j]`; a well assigned to
      two platforms is counted twice. */
  function Production(a: seq<real>, x: Matrix): real
    requires forall i :: 0 <= i < |x| ==> |x[i]| <= |a|
  {
    Sum(SharedDots(a, x))
  }

  /** The terms `-a[j] * r[j]` of one row. */
  function NegatedTerms(a: seq<real>, r: seq<real>): seq<real>
    requires |r| <= |a|
  {
    seq(|r|, j requires 0 <= j < |r| => -a[j] * r[j])
  }

  /** The per-row sums of the negated terms. */
  function NegatedRowSums(a: seq<real>, x: Matrix): seq<real>
    requires forall i :: 0 <= i < |x| ==> |x[i]| <= |a|
  {
    seq(|x|, i requires 0 <= i < |x| => Sum(NegatedTerms(a, x[i])))
  }

  /** z2 as plmpm.py adds it up: the sum of the terms `-a[j] * x[i][j]`. */
  function NegatedProduction(a: seq<real>, x: Matrix): real
    requires forall i :: 0 <= i < |x| ==> |x[i]| <= |a|
  {
    Sum(NegatedRowSums(a, x))
  }

  /** The terms `(DW[j] + DQ[i][j]) * x[i][j]` of platform `i`. */
  function WellDamageTerms(dw: seq<real>, dq: Matrix, d: Layout, sh: Shape, i: nat): seq<real>
    requires Fits(d, sh) && |dw| >= sh.wells && Covers(dq, sh.platforms, sh.wells)
    requires i < sh.platforms
  {
    seq(sh.wells, j requires 0 <= j < sh.wells => (dw[j] + dq[i][j]) * d.x[i][j])
  }

  /** The terms `(DO[i] + DP[i][k]) * y[i][k]` of platform `i`. */
  function TierDamageTerms(dO: seq<real>, dp: Matrix, d: Layout, sh: Shape, i: nat): seq<real>
    requires Fits(d, sh) && |dO| >= sh.platforms && Covers(dp, sh.platforms, sh.capacities)
    requires i < sh.platforms
  {
    seq(sh.capacities, k requires 0 <= k < sh.capacities => (dO[i] + dp[i][k]) * d.y[i][k])
  }

  /** Damage caused by platform `i`: its wells and connections, then its
      building at each tier. */
  function PlatformDamage(dw: seq<real>, dq: Matrix, dO: seq<real>, dp: Matrix,
                          d: Layout, sh: Shape, i: nat): real
    requires Fits(d, sh) && DamageTablesCover(dw, dq, dO, dp, sh) && i < sh.platforms
  {
    Sum(WellDamageTerms(dw, dq, d, sh, i)) + Sum(TierDamageTerms(dO, dp, d, sh, i))
  }

  function PlatformDamages(dw: seq<real>, dq: Matrix, dO: seq<real>, dp: Matrix,
                           d: Layout, sh: Shape): seq<real>
    requires Fits(d, sh) && DamageTablesCover(dw, dq, dO, dp, sh)
  {
    seq(sh.platforms, i requires 0 <= i < sh.platforms =>
      PlatformDamage(dw, dq, dO, dp, d, sh, i))
  }

  /** z3 of plmpm.py: the damage of every platform, added up. */
  function Damage(dw: seq<real>, dq: Matrix, dO: seq<real>, dp: Matrix, d: Layout, sh: Shape): real
    requires Fits(d, sh) && DamageTablesCover(dw, dq, dO, dp, sh)
  {
    Sum(PlatformDamages(dw, dq, dO, dp, d, sh))
  }

  /** A row's sum minus one: zero exactly when the row selects one unit. */
  function RowSlack(r: seq<real>): real {
    Sum(r) - 1.0
  }

  /** How many platforms serve well `j`, minus one. */
  function CoverageSlack(x: Matrix, j: nat): real
    requires forall i :: 0 <= i < |x| ==> j < |x[i]|
  {
    Sum(Column(x, j)) - 1.0
  }

  /** Production assigned to platform `i` minus the capacity selected for it. */
  function CapacitySlack(a: seq<real>, b: seq<real>, d: Layout, sh: Shape, i: nat): real
    requires Fits(d, sh) && CapacityTablesCover(a, b, sh) && i < sh.platforms
  {
    Dot(a, d.x[i]) - Dot(b, d.y[i])
  }

  /** The constraints plmpm.py emits for platform `i`, in order g1, g2, g3. */
  function Triplet(a: seq<real>, b: seq<real>, d: Layout, sh: Shape, i: nat): seq<real>
    requires Fits(d, sh) && CapacityTablesCover(a, b, sh) && i < sh.platforms
  {
    [RowSlack(d.x[i]), RowSlack(d.y[i]), CapacitySlack(a, b, d, sh, i)]
  }

  /** The triplets of the first `n` platforms, appended in platform order. */
  function TripletConstraints(a: seq<real>, b: seq<real>, d: Layout, sh: Shape, n: nat): (g: seq<real>)
    requires Fits(d, sh) && CapacityTablesCover(a, b, sh) && n <= sh.platforms
    ensures |g| == 3 * n
    ensures forall i :: 0 <= i < n ==>
              && g[3 * i] == RowSlack(d.x[i])
              && g[3 * i + 1] == RowSlack(d.y[i])
              && g[3 * i + 2] == CapacitySlack(a, b, d, sh, i)
    decreases n
  {
    if n == 0 then []
    else
      TripletConstraints(a, b, d, sh, n - 1) + Triplet(a, b, d, sh, n - 1)
  }

  /** W entries, one per well: its coverage slack. */
  function CoverageBlock(x: Matrix, sh: Shape): seq<real>
    requires IsMatrix(x, sh.platforms, sh.wells)
  {
    seq(sh.wells, j requires 0 <= j < sh.wells => CoverageSlack(x, j))
  }

  /** P entries, one per platform: its capacity slack. */
  function CapacityBlock(a: seq<real>, b: seq<real>, d: Layout, sh: Shape): seq<real>
    requires Fits(d, sh) && CapacityTablesCover(a, b, sh)
  {
    seq(sh.platforms, i requires 0 <= i < sh.platforms => CapacitySlack(a, b, d, sh, i))
  }

  /** P entries, one per platform: the slack of its tier row. */
  function TierBlock(y: Matrix): seq<real> {
    seq(|y|, i requires 0 <= i < |y| => RowSlack(y[i]))
  }

  /** `g` is laid out in blocks: the coverage slack of every well, then
      the capacity slack of every platform, then the slack of every
      platform's tier row. */
  predicate IsBlockLayout(g: seq<real>, a: seq<real>, b: seq<real>, d: Layout, sh: Shape)
    requires Fits(d, sh) && CapacityTablesCover(a, b, sh)
  {
    && |g| == sh.wells + 2 * sh.platforms
    && (forall j :: 0 <= j < sh.wells ==> g[j] == CoverageSlack(d.x, j))
    && (forall i :: 0 <= i < sh.platforms ==>
          && g[sh.wells + i] == CapacitySlack(a, b, d, sh, i)
          && g[sh.wells + sh.platforms + i] == RowSlack(d.y[i]))
  }

  /** The block layout without its capacity block: the coverage slack of
      every well, then the slack of every platform's tier row. */
  predicate IsCoverageTierLayout(g: seq<real>, d: Layout, sh: Shape)
    requires Fits(d, sh)
  {
    && |g| == sh.wells + sh.platforms
    && (forall j :: 0 <= j < sh.wells ==> g[j] == CoverageSlack(d.x, j))
    && (forall i :: 0 <= i < sh.platforms ==> g[sh.wells + i] == RowSlack(d.y[i]))
  }

  /** The block layout of the C++, Java, jMetal and first pymoo variants:
      coverage, then capacity, then tier rows. */
  function BlockConstraints(a: seq<real>, b: seq<real>, d: Layout, sh: Shape): (g: seq<real>)
    requires Fits(d, sh) && CapacityTablesCover(a, b, sh)
    ensures IsBlockLayout(g, a, b, d, sh)
  {
    CoverageBlock(d.x, sh) + CapacityBlock(a, b, d, sh) + TierBlock(d.y)
  }

  // ---------------------------------------------------------------------
  // Properties of the objectives

  /** z2 is the negated production. */
  lemma NegatedProductionIsMinusProduction(a: seq<real>, x: Matrix)
    requires forall i :: 0 <= i < |x| ==> |x[i]| <= |a|
    ensures NegatedProduction(a, x) == -Production(a, x)
  {
    var rows, negRows := SharedDots(a, x), NegatedRowSums(a, x);
    forall i | 0 <= i < |x|
      ensures negRows[i] == -1.0 * rows[i]
    {
      SumOfScaled(Products(a, x[i]), -1.0, NegatedTerms(a, x[i]));
    }
    SumOfScaled(rows, -1.0, negRows);
  }

  lemma DotNonNegative(w: seq<real>, r: seq<real>)
    requires |r| <= |w|
    requires NonNegative(w) && NonNegative(r)
    ensures Dot(w, r) >= 0.0
  {
    SumNonNegative(Products(w, r));
  }

  lemma WeightedTotalNonNegative(w: Matrix, m: Matrix)
    requires Weighs(w, m)
    requires NonNegativeMatrix(m)
    requires forall i :: 0 <= i < |m| ==> NonNegative(w[i])
    ensures WeightedTotal(w, m) >= 0.0
  {
    var rows := PairedDots(w, m);
    forall i | 0 <= i < |m|
      ensures rows[i] >= 0.0
    {
      DotNonNegative(w[i], m[i]);
    }
    SumNonNegative(rows);
  }

  /** With non-negative costs and a non-negative vector the cost is
      non-negative. */
  lemma CostNonNegative(c: Matrix, f: Matrix, d: Layout, sh: Shape)
    requires Fits(d, sh) && CostTablesCover(c, f, sh)
    requires NonNegativeLayout(d)
    requires NonNegativeMatrix(c) && NonNegativeMatrix(f)
    ensures Cost(c, f, d, sh) >= 0.0
  {
    WeightedTotalNonNegative(c, d.x);
    WeightedTotalNonNegative(f, d.y);
  }

  /** With non-negative production and a non-negative vector the
      production is non-negative, so z2 is at most zero. */
  lemma ProductionNonNegative(a: seq<real>, x: Matrix)
    requires forall i :: 0 <= i < |x| ==> |x[i]| <= |a|
    requires NonNegative(a) && NonNegativeMatrix(x)
    ensures Production(a, x) >= 0.0
    ensures NegatedProduction(a, x) <= 0.0
  {
    var rows := SharedDots(a, x);
    forall i | 0 <= i < |x|
      ensures rows[i] >= 0.0
    {
      DotNonNegative(a, x[i]);
    }
    SumNonNegative(rows);
    NegatedProductionIsMinusProduction(a, x);
  }

  /** With strictly positive production, a non-negative vector and one
      positive assignment, z2 is strictly negative. */
  lemma ProductionPositive(a: seq<real>, x: Matrix, i: nat, j: nat)
    requires forall i' :: 0 <= i' < |x| ==> |x[i']| <= |a|
    requires forall j' :: 0 <= j' < |a| ==> a[j'] > 0.0
    requires NonNegativeMatrix(x)
    requires i < |x| && j < |x[i]| && x[i][j] > 0.0
    ensures Production(a, x) > 0.0
    ensures NegatedProduction(a, x) < 0.0
  {
    var rows := SharedDots(a, x);
    forall i' | 0 <= i' < |x|
      ensures rows[i'] >= 0.0
    {
      DotNonNegative(a, x[i']);
    }
    SumPositive(Products(a, x[i]), j);
    SumPositive(rows, i);
    NegatedProductionIsMinusProduction(a, x);
  }

  /** z3 splits into the well damage weighted by how often each well is
      assigned (`Production(dw, x)` is the dw-weighted assignment total,
      not a production), the connection damage, the platform damage weighted by how
      many tiers each platform selects, and the tier damage. */
  lemma DamageSplits(dw: seq<real>, dq: Matrix, dO: seq<real>, dp: Matrix, d: Layout, sh: Shape)
    requires Fits(d, sh) && DamageTablesCover(dw, dq, dO, dp, sh)
    ensures Damage(dw, dq, dO, dp, d, sh)
            == Production(dw, d.x) + WeightedTotal(dq, d.x)
               + Dot(dO, RowTotals(d.y)) + WeightedTotal(dp, d.y)
  {
    var P := sh.platforms;
    var wellPart, connPart := SharedDots(dw, d.x), PairedDots(dq, d.x);
    var platPart, tierPart := Products(dO, RowTotals(d.y)), PairedDots(dp, d.y);
    var xPart := seq(P, i requires 0 <= i < P => wellPart[i] + connPart[i]);
    var yPart := seq(P, i requires 0 <= i < P => platPart[i] + tierPart[i]);
    var whole := PlatformDamages(dw, dq, dO, dp, d, sh);
    forall i | 0 <= i < P
      ensures whole[i] == xPart[i] + yPart[i]
    {
      PlatformDamageSplits(dw, dq, dO, dp, d, sh, i);
    }
    SumOfPointwiseSum(xPart, yPart, whole);
    SumOfPointwiseSum(wellPart, connPart, xPart);
    SumOfPointwiseSum(platPart, tierPart, yPart);
  }

  lemma PlatformDamageSplits(dw: seq<real>, dq: Matrix, dO: seq<real>, dp: Matrix,
                             d: Layout, sh: Shape, i: nat)
    requires Fits(d, sh) && DamageTablesCover(dw, dq, dO, dp, sh) && i < sh.platforms
    ensures PlatformDamage(dw, dq, dO, dp, d, sh, i)
            == Dot(dw, d.x[i]) + Dot(dq[i], d.x[i]) + dO[i] * Sum(d.y[i]) + Dot(dp[i], d.y[i])
  {
    WellDamageSplits(dw, dq, d, sh, i);
    TierDamageSplits(dO, dp, d, sh, i);
  }

  /** The well part of a platform's damage is two dot products. */
  lemma WellDamageSplits(dw: seq<real>, dq: Matrix, d: Layout, sh: Shape, i: nat)
    requires Fits(d, sh) && |dw| >= sh.wells && Covers(dq, sh.platforms, sh.wells)
    requires i < sh.platforms
    ensures Sum(WellDamageTerms(dw, dq, d, sh, i)) == Dot(dw, d.x[i]) + Dot(dq[i], d.x[i])
  {
    SumOfPairedProducts(dw, dq[i], d.x[i], WellDamageTerms(dw, dq, d, sh, i));
  }

  /** The tier part of a platform's damage is the platform weight times the
      number of tiers selected, plus a dot product. */
  lemma TierDamageSplits(dO: seq<real>, dp: Matrix, d: Layout, sh: Shape, i: nat)
    requires Fits(d, sh) && |dO| >= sh.platforms && Covers(dp, sh.platforms, sh.capacities)
    requires i < sh.platforms
    ensures Sum(TierDamageTerms(dO, dp, d, sh, i)) == dO[i] * Sum(d.y[i]) + Dot(dp[i], d.y[i])
  {
    SumOfShiftedProducts(dO[i], dp[i], d.y[i], TierDamageTerms(dO, dp, d, sh, i));
  }

  /** With non-negative damage tables and vector, z3 is non-negative. */
  lemma DamageNonNegative(dw: seq<real>, dq: Matrix, dO: seq<real>, dp: Matrix, d: Layout, sh: Shape)
    requires Fits(d, sh) && DamageTablesCover(dw, dq, dO, dp, sh)
    requires NonNegativeLayout(d)
    requires NonNegative(dw) && NonNegativeMatrix(dq) && NonNegative(dO) && NonNegativeMatrix(dp)
    ensures Damage(dw, dq, dO, dp, d, sh) >= 0.0
  {
    var whole := PlatformDamages(dw, dq, dO, dp, d, sh);
    forall i | 0 <= i < sh.platforms
      ensures whole[i] >= 0.0
    {
      var xs, ys := WellDamageTerms(dw, dq, d, sh, i), TierDamageTerms(dO, dp, d, sh, i);
      forall j | 0 <= j < sh.wells
        ensures xs[j] >= 0.0
      {
        ProductNonNegative(dw[j] + dq[i][j], d.x[i][j]);
      }
      forall k | 0 <= k < sh.capacities
        ensures ys[k] >= 0.0
      {
        ProductNonNegative(dO[i] + dp[i][k], d.y[i][k]);
      }
      SumNonNegative(xs);
      SumNonNegative(ys);
    }
    SumNonNegative(whole);
  }

  lemma ProductNonNegative(u: real, v: real)
    requires u >= 0.0 && v >= 0.0
    ensures u * v >= 0.0
  {
  }

  // ---------------------------------------------------------------------
  // Properties of the constraints

  /** With tier row `i` selecting tier `k` alone, platform `i`'s capacity
      constraint holds exactly when its assigned production fits in tier
      `k`'s capacity. */
  lemma SingleTierCapacity(a: seq<real>, b: seq<real>, d: Layout, sh: Shape, i: nat, k: nat)
    requires Fits(d, sh) && CapacityTablesCover(a, b, sh)
    requires i < sh.platforms && k < sh.capacities
    requires d.y[i][k] == 1.0
    requires forall k' :: 0 <= k' < sh.capacities && k' != k ==> d.y[i][k'] == 0.0
    ensures CapacitySlack(a, b, d, sh, i) <= 0.0 <==> Dot(a, d.x[i]) <= b[k]
  {
    SumOfSingleton(Products(b, d.y[i]), k);
  }

  lemma {:induction false} SumOfConstant(n: nat, v: real)
    ensures Sum(Constant(n, v)) == n as real * v
    decreases n
  {
    if n > 0 {
      assert Constant(n, v)[..n - 1] == Constant(n - 1, v);
      SumOfConstant(n - 1, v);
    }
  }

  /** The g1 entries of plmpm.py, one per platform. */
  function RowSlacks(x: Matrix): seq<real> {
    seq(|x|, i requires 0 <= i < |x| => RowSlack(x[i]))
  }

  /** Row slacks and coverage slacks count the same assignments: the g1
      entries of plmpm.py, each plus one, add up to the same total as the
      coverage entries of the block layout, each plus one. */
  lemma RowAndCoverageTotalsAgree(x: Matrix, sh: Shape)
    requires IsMatrix(x, sh.platforms, sh.wells)
    ensures Sum(RowSlacks(x)) + sh.platforms as real
            == Sum(CoverageBlock(x, sh)) + sh.wells as real
  {
    var P, W := sh.platforms, sh.wells;
    SumOfPointwiseSum(RowSlacks(x), Constant(P, 1.0), RowTotals(x));
    SumOfPointwiseSum(CoverageBlock(x, sh), Constant(W, 1.0), ColumnTotals(x, W));
    SumOfConstant(P, 1.0);
    SumOfConstant(W, 1.0);
    RowsThenColumns(x, W);
  }

  lemma TripletEntries(a: seq<real>, b: seq<real>, d: Layout, sh: Shape, i: nat)
    requires Fits(d, sh) && CapacityTablesCover(a, b, sh) && i < sh.platforms
    ensures TripletConstraints(a, b, d, sh, sh.platforms)[3 * i + 1] == RowSlack(d.y[i])
    ensures TripletConstraints(a, b, d, sh, sh.platforms)[3 * i + 2] == CapacitySlack(a, b, d, sh, i)
  {
  }

  lemma BlockEntries(a: seq<real>, b: seq<real>, d: Layout, sh: Shape, i: nat)
    requires Fits(d, sh) && CapacityTablesCover(a, b, sh) && i < sh.platforms
    ensures BlockConstraints(a, b, d, sh)[sh.wells + sh.platforms + i] == RowSlack(d.y[i])
    ensures BlockConstraints(a, b, d, sh)[sh.wells + i] == CapacitySlack(a, b, d, sh, i)
  {
  }

  /** The triplet layout and the block layout hold the same tier and
      capacity entries, at different positions. */
  lemma TripletMatchesBlock(a: seq<real>, b: seq<real>, d: Layout, sh: Shape, i: nat)
    requires Fits(d, sh) && CapacityTablesCover(a, b, sh) && i < sh.platforms
    ensures TripletConstraints(a, b, d, sh, sh.platforms)[3 * i + 1]
            == BlockConstraints(a, b, d, sh)[sh.wells + sh.platforms + i]
    ensures TripletConstraints(a, b, d, sh, sh.platforms)[3 * i + 2]
            == BlockConstraints(a, b, d, sh)[sh.wells + i]
  {
    TripletEntries(a, b, d, sh, i);
    BlockEntries(a, b, d, sh, i);
  }

  /** The cost is linear in the decision vector with the drilling and
      building costs as coefficients: the unit vector of a slot costs
      exactly that slot's table entry. */
  lemma UnitVectorCost(c: Matrix, f: Matrix, sh: Shape, s: Slot)
    requires CostTablesCover(c, f, sh) && ValidSlot(sh, s)
    ensures var r := Decode(Unit(sh.VarCount(), IndexOf(sh, s)), sh);
            && r.Success?
            && Cost(c, f, r.value, sh) == (match s
                                           case Assignment(i, j) => c[i][j]
                                           case Tier(i, k) => f[i][k])
  {
    UnitDecodes(sh, s);
    var d := Decode(Unit(sh.VarCount(), IndexOf(sh, s)), sh).value;
    match s
    case Assignment(i, j) =>
      WeightedTotalOfSingleOne(c, d.x, i, j);
      WeightedTotalOfZero(f, d.y);
    case Tier(i, k) =>
      WeightedTotalOfZero(c, d.x);
      WeightedTotalOfSingleOne(f, d.y, i, k);
  }

  /** Every entry at most zero: how pymoo reads a constraint vector as
      satisfied. */
  predicate Satisfied(g: seq<real>) {
    forall t :: 0 <= t < |g| ==> g[t] <= 0.0
  }

  lemma SatisfiedConcat(u: seq<real>, w: seq<real>)
    ensures Satisfied(u + w) <==> Satisfied(u) && Satisfied(w)
  {
    if Satisfied(u + w) {
      forall t | 0 <= t < |u|
        ensures u[t] <= 0.0
      {
        assert (u + w)[t] == u[t];
      }
      forall t | 0 <= t < |w|
        ensures w[t] <= 0.0
      {
        assert (u + w)[|u| + t] == w[t];
      }
    }
    if Satisfied(u) && Satisfied(w) {
      forall t | 0 <= t < |u + w|
        ensures (u + w)[t] <= 0.0
      {
        if t >= |u| {
          assert (u + w)[t] == w[t - |u|];
        }
      }
    }
  }

  /** The block layout is satisfied exactly when every well is served at
      most once, every platform's production fits its selected capacity,
      and every platform selects at most one tier. */
  lemma BlockSatisfiedIff(a: seq<real>, b: seq<real>, d: Layout, sh: Shape)
    requires Fits(d, sh) && CapacityTablesCover(a, b, sh)
    ensures Satisfied(BlockConstraints(a, b, d, sh))
            <==> && (forall j :: 0 <= j < sh.wells ==> Sum(Column(d.x, j)) <= 1.0)
                 && (forall i :: 0 <= i < sh.platforms ==> Dot(a, d.x[i]) <= Dot(b, d.y[i]))
                 && (forall i :: 0 <= i < sh.platforms ==> Sum(d.y[i]) <= 1.0)
  {
    var cov, cap, tier := CoverageBlock(d.x, sh), CapacityBlock(a, b, d, sh), TierBlock(d.y);
    SatisfiedConcat(cov + cap, tier);
    SatisfiedConcat(cov, cap);
    assert Satisfied(cov) <==> forall j :: 0 <= j < sh.wells ==> Sum(Column(d.x, j)) <= 1.0 by {
      assert forall j :: 0 <= j < sh.wells ==> cov[j] == Sum(Column(d.x, j)) - 1.0;
    }
  }

  /** The coverage-and-tier layout is satisfied exactly when every well is
      served at most once and every platform selects at most one tier. */
  lemma CoverageAndTierSatisfiedIff(d: Layout, sh: Shape)
    requires Fits(d, sh)
    ensures Satisfied(CoverageBlock(d.x, sh) + TierBlock(d.y))
            <==> && (forall j :: 0 <= j < sh.wells ==> Sum(Column(d.x, j)) <= 1.0)
                 && (forall i :: 0 <= i < sh.platforms ==> Sum(d.y[i]) <= 1.0)
  {
    var cov, tier := CoverageBlock(d.x, sh), TierBlock(d.y);
    SatisfiedConcat(cov, tier);
    assert Satisfied(tier) <==> forall i :: 0 <= i < sh.platforms ==> Sum(d.y[i]) <= 1.0 by {
      assert forall i :: 0 <= i < sh.platforms ==> tier[i] == Sum(d.y[i]) - 1.0;
    }
    assert Satisfied(cov) <==> forall j :: 0 <= j < sh.wells ==> Sum(Column(d.x, j)) <= 1.0 by {
      assert forall j :: 0 <= j < sh.wells ==> cov[j] == Sum(Column(d.x, j)) - 1.0;
    }
  }
}

=== FILE: examples.dfy ===
/** One platform, two wells and one capacity tier, with both wells
    assigned to the platform and its single tier built: the candidate
    x = [[1, 1]], y = [[1]], encoded as the vector (1, 1, 1). */
module Examples {
  import opened Sums
  import opened Encoding
  import opened Evaluation
  import PlmpmPy
  import PlmpmPymoo1

  /** Drilling cost 1 per well, building cost 0, production 10 per well,
      no damage, and the given capacity for the single tier. */
  function Tables(capacity: real): (p: PlmpmPy.Problem)
    ensures p.shape == Shape(1, 2, 1) && PlmpmPy.Valid(p)
    ensures p.a == [10.0, 10.0] && p.b == [capacity]
  {
    PlmpmPy.Problem(Shape(1, 2, 1), [[1.0, 1.0]], [[0.0]], [10.0, 10.0], [capacity],
                    [0.0, 0.0], [[0.0, 0.0]], [0.0], [[0.0]])
  }

  /** The same tables for the block-layout variant. */
  function BlockTables(capacity: real): (p: PlmpmPymoo1.Problem)
    ensures PlmpmPymoo1.Valid(p) && PlmpmPymoo1.ShapeOfProblem(p) == Shape(1, 2, 1)
    ensures p.a == [10.0, 10.0] && p.b == [capacity]
  {
    PlmpmPymoo1.Problem([[1.0, 1.0]], [[0.0]], [10.0, 10.0], [capacity])
  }

  /** The one platform serves both wells and builds its one tier. */
  predicate BothWells(d: Layout) {
    && Fits(d, Shape(1, 2, 1))
    && d.x[0][0] == 1.0 && d.x[0][1] == 1.0 && d.y[0][0] == 1.0
  }

  lemma DecodesBothWells(v: seq<real>)
    requires v == [1.0, 1.0, 1.0]
    ensures Decode(v, Shape(1, 2, 1)).Success? && BothWells(Decode(v, Shape(1, 2, 1)).value)
  {
    var sh := Shape(1, 2, 1);
    var d := Decode(v, sh).value;
    assert d.x[0][0] == v[sh.XIndex(0, 0)];
    assert d.x[0][1] == v[sh.XIndex(0, 1)];
    assert d.y[0][0] == v[sh.YIndex(0, 0)];
  }

  /** The well row sums to 2 and the tier row to 1; the platform's
      production is a[0] + a[1] and its selected capacity b[0]. */
  lemma BothWellsRows(a: seq<real>, b: seq<real>, d: Layout)
    requires |a| >= 2 && |b| >= 1 && BothWells(d)
    ensures RowSlack(d.x[0]) == 1.0 && RowSlack(d.y[0]) == 0.0
    ensures CapacitySlack(a, b, d, Shape(1, 2, 1), 0) == a[0] + a[1] - b[0]
  {
    assert d.x[0] == [1.0, 1.0] && d.y[0] == [1.0];
    assert Products(a, d.x[0]) == [a[0], a[1]];
    assert Products(b, d.y[0]) == [b[0]];
    assert [a[0]][..0] == [] && [b[0]][..0] == [] && [1.0][..0] == [];
    assert Sum([a[0]]) == a[0] && Sum([b[0]]) == b[0] && Sum([1.0]) == 1.0;
    assert [a[0], a[1]][..1] == [a[0]] && [1.0, 1.0][..1] == [1.0];
    assert Sum([a[0], a[1]]) == Sum([a[0]]) + a[1];
    assert Sum([1.0, 1.0]) == Sum([1.0]) + 1.0;
  }

  /** Each well column sums to 1. */
  lemma BothWellsColumns(d: Layout)
    requires BothWells(d)
    ensures CoverageSlack(d.x, 0) == 0.0 && CoverageSlack(d.x, 1) == 0.0
  {
    assert Column(d.x, 0) == [1.0] && Column(d.x, 1) == [1.0];
    assert Sum([1.0]) == 1.0;
  }

  /** The triplet of the one platform: g1 = 1 + 1 - 1 = 1, g2 = 1 - 1 = 0
      and g3 = a[0] + a[1] - b[0]. */
  lemma TripletOfLayout(a: seq<real>, b: seq<real>, d: Layout, sh: Shape)
    requires sh == Shape(1, 2, 1) && CapacityTablesCover(a, b, sh) && BothWells(d)
    ensures TripletConstraints(a, b, d, sh, 1) == [1.0, 0.0, a[0] + a[1] - b[0]]
  {
    BothWellsRows(a, b, d);
    assert TripletConstraints(a, b, d, sh, 0) == [];
  }

  /** Whatever the tables, plmpm.py gives this candidate that triplet. */
  lemma TripletOfBothWells(p: PlmpmPy.Problem, v: seq<real>)
    requires p.shape == Shape(1, 2, 1) && PlmpmPy.Valid(p)
    requires |v| >= 3 && BothWells(Decode(v, p.shape).value)
    ensures var G := PlmpmPy.Evaluate(p, v).value.constraints;
            G == [1.0, 0.0, p.a[0] + p.a[1] - p.b[0]]
  {
    TripletOfLayout(p.a, p.b, Decode(v, p.shape).value, p.shape);
  }

  /** With capacity 20 the triplet is (1, 0, 0): exactly at capacity, yet
      g1 is positive because the row sum counts the platform's two wells. */
  lemma AtCapacity(v: seq<real>)
    requires v == [1.0, 1.0, 1.0]
    ensures var r := PlmpmPy.Evaluate(Tables(20.0), v);
            r.Success? && r.value.constraints == [1.0, 0.0, 0.0]
  {
    DecodesBothWells(v);
    TripletOfBothWells(Tables(20.0), v);
  }

  /** With capacity 15 the capacity entry is g3 = 20 - 15 = 5 > 0. */
  lemma OverCapacity(v: seq<real>)
    requires v == [1.0, 1.0, 1.0]
    ensures var r := PlmpmPy.Evaluate(Tables(15.0), v);
            r.Success? && r.value.constraints == [1.0, 0.0, 5.0]
  {
    DecodesBothWells(v);
    TripletOfBothWells(Tables(15.0), v);
  }

  /** The block layout gives the same candidate (0, 0, a[0] + a[1] - b[0], 0):
      each well is served exactly once. */
  lemma BlockOfBothWells(p: PlmpmPymoo1.Problem, v: seq<real>)
    requires PlmpmPymoo1.Valid(p) && PlmpmPymoo1.ShapeOfProblem(p) == Shape(1, 2, 1)
    requires |v| >= 3 && BothWells(Decode(v, Shape(1, 2, 1)).value)
    ensures var G := PlmpmPymoo1.Evaluate(p, v).value.constraints;
            G == [0.0, 0.0, p.a[0] + p.a[1] - p.b[0], 0.0]
  {
    var sh := Shape(1, 2, 1);
    var d := Decode(v, sh).value;
    var G := PlmpmPymoo1.Evaluate(p, v).value.constraints;
    assert IsBlockLayout(G, p.a, p.b, d, sh);
    BothWellsRows(p.a, p.b, d);
    BothWellsColumns(d);
    assert G[0] == 0.0 && G[1] == 0.0;
    assert G[2] == p.a[0] + p.a[1] - p.b[0];
    assert G[3] == 0.0;
  }

  /** At capacity 20 the block layout is all zeros, so the candidate is
      feasible there while the triplet layout reports g1 = 1. */
  lemma BlockAtCapacity(v: seq<real>)
    requires v == [1.0, 1.0, 1.0]
    ensures var r := PlmpmPymoo1.Evaluate(BlockTables(20.0), v);
            r.Success? && r.value.constraints == [0.0, 0.0, 0.0, 0.0]
  {
    DecodesBothWells(v);
    BlockOfBothWells(BlockTables(20.0), v);
  }
}

=== FILE: loops.dfy ===
/** The loops plmpm.cpp and plmpm.java share: the index walk that fills
    `x_ij` and `y_ik`, the summing loops behind each constraint, and the
    cost accumulation. */
module Loops {
  import opened Results
  import opened Sums
  import opened Encoding
  import opened Evaluation

  function Zeros(rows: nat, cols: nat): (m: Matrix)
    ensures IsMatrix(m, rows, cols)
  {
    seq(rows, _ => Constant(cols, 0.0))
  }

  /** Fills a `rows` x `cols` matrix from the vector with one running
      index that starts at `start`, row by row; `ok` is false when a read
      falls past the end of the vector, and `index` is then where it fell. */
  method WalkBlock(v: seq<real>, start: nat, rows: nat, cols: nat)
    returns (m: Matrix, ok: bool, index: nat)
    requires start <= |v|
    ensures ok <==> start + rows * cols <= |v|
    ensures ok ==> index == start + rows * cols && IsMatrix(m, rows, cols)
    ensures ok ==> forall i, j :: 0 <= i < rows && 0 <= j < cols ==>
                     start + RowMajor(i, j, cols) < |v| && m[i][j] == v[start + RowMajor(i, j, cols)]
  {
    m := Zeros(rows, cols);
    index := start;
    var i := 0;
    while i < rows
      invariant i <= rows && IsMatrix(m, rows, cols)
      invariant index == start + RowMajor(i, 0, cols) && index <= |v|
      invariant forall i', j :: 0 <= i' < i && 0 <= j < cols ==>
                  start + RowMajor(i', j, cols) < index && m[i'][j] == v[start + RowMajor(i', j, cols)]
    {
      var j := 0;
      while j < cols
        invariant j <= cols && IsMatrix(m, rows, cols)
        invariant index == start + RowMajor(i, j, cols) && index <= |v|
        invariant forall i', j' :: 0 <= i' < i && 0 <= j' < cols ==>
                    start + RowMajor(i', j', cols) < index && m[i'][j'] == v[start + RowMajor(i', j', cols)]
        invariant forall j' :: 0 <= j' < j ==>
                    start + RowMajor(i, j', cols) < index && m[i][j'] == v[start + RowMajor(i, j', cols)]
      {
        if index >= |v| {
          RowMajorBound(i, j, rows, cols);
          return m, false, index;
        }
        m := m[i := m[i][j := v[index]]];
        index := index + 1;
        j := j + 1;
      }
      assert RowMajor(i + 1, 0, cols) == RowMajor(i, cols, cols);
      i := i + 1;
    }
    ok := true;
    assert RowMajor(rows, 0, cols) == rows * cols;
  }

  /** The nested index walk of the C++ and Java evaluators: `x` entries
      platform by platform, then `y` entries platform by platform, with one
      running index. It reads exactly what the slicing decode reads, and the
      running index ends at P*W + P*K. */
  method DecodeByIndex(v: seq<real>, sh: Shape) returns (r: Result<Layout, DecodeError>, index: nat)
    ensures r == Decode(v, sh)
    ensures r.Success? ==> index == sh.VarCount()
  {
    var P, W, K := sh.platforms, sh.wells, sh.capacities;
    var x, okX, afterX := WalkBlock(v, 0, P, W);
    index := afterX;
    if !okX {
      return Failure(ShortVector(sh.VarCount(), |v|)), index;
    }
    var y, okY, afterY := WalkBlock(v, afterX, P, K);
    index := afterY;
    if !okY {
      return Failure(ShortVector(sh.VarCount(), |v|)), index;
    }
    var d := Layout(x, y);
    assert DecodedFrom(d, v, sh);
    DecodedFromUnique(d, Decode(v, sh).value, v, sh);
    r := Success(d);
  }

  /** `sum_x_ij += x_ij[i][j]` over the platforms: column `j`'s sum. */
  method ColumnSum(x: Matrix, j: nat) returns (s: real)
    requires forall i :: 0 <= i < |x| ==> j < |x[i]|
    ensures s == Sum(Column(x, j))
  {
    s := 0.0;
    var i := 0;
    while i < |x|
      invariant i <= |x|
      invariant s == Sum(Column(x, j)[..i])
    {
      SumPrefixStep(Column(x, j), i);
      s := s + x[i][j];
      i := i + 1;
    }
    assert Column(x, j)[..|x|] == Column(x, j);
  }

  /** `sum += w[j] * r[j]` along a row. */
  method WeightedRowSum(w: seq<real>, r: seq<real>) returns (s: real)
    requires |r| <= |w|
    ensures s == Dot(w, r)
  {
    s := 0.0;
    var j := 0;
    while j < |r|
      invariant j <= |r|
      invariant s == Dot(w, r[..j])
    {
      DotPrefixStep(w, r, j);
      s := s + w[j] * r[j];
      j := j + 1;
    }
    assert r[..|r|] == r;
  }

  /** `sum += r[k]` along a row. */
  method RowSum(r: seq<real>) returns (s: real)
    ensures s == Sum(r)
  {
    s := 0.0;
    var k := 0;
    while k < |r|
      invariant k <= |r|
      invariant s == Sum(r[..k])
    {
      SumPrefixStep(r, k);
      s := s + r[k];
      k := k + 1;
    }
    assert r[..|r|] == r;
  }

  /** Adds `w[i][j] * m[i][j]` into `acc` for every entry, row by row. */
  method AccumulateWeighted(acc: real, w: Matrix, m: Matrix) returns (total: real)
    requires Weighs(w, m)
    ensures total == acc + WeightedTotal(w, m)
  {
    total := acc;
    var rows := PairedDots(w, m);
    var i := 0;
    while i < |m|
      invariant i <= |m|
      invariant total == acc + Sum(rows[..i])
    {
      SumPrefixStep(rows, i);
      var j := 0;
      while j < |m[i]|
        invariant j <= |m[i]|
        invariant total == acc + Sum(rows[..i]) + Dot(w[i], m[i][..j])
      {
        DotPrefixStep(w[i], m[i], j);
        total := total + w[i][j] * m[i][j];
        j := j + 1;
      }
      assert m[i][..|m[i]|] == m[i];
      i := i + 1;
    }
    assert rows[..|m|] == rows;
  }

  /** `objective += c[i][j] * x_ij[i][j]`, then `objective += f[i][k] * y_ik[i][k]`. */
  method AccumulateCost(c: Matrix, f: Matrix, d: Layout, sh: Shape) returns (objective: real)
    requires Fits(d, sh) && CostTablesCover(c, f, sh)
    ensures objective == Cost(c, f, d, sh)
  {
    objective := AccumulateWeighted(0.0, c, d.x);
    objective := AccumulateWeighted(objective, f, d.y);
  }
}

=== FILE: plmpm_cpp.dfy ===
/** plmpm.cpp: the pagmo problem with integer tables, block constraints
    and one negated-cost objective. */
module PlmpmCpp {
  import opened Results
  import opened Sums
  import opened Encoding
  import opened Evaluation
  import opened Loops

  /** The constructor's integer tables. */
  datatype Problem = Problem(c: seq<seq<int>>, f: seq<seq<int>>, a: seq<int>, b: seq<int>)

  /** An integer table entry taking part in a `double` product. */
  function RealRow(r: seq<int>): (s: seq<real>)
    ensures |s| == |r| && forall j :: 0 <= j < |r| ==> s[j] == r[j] as real
  {
    seq(|r|, j requires 0 <= j < |r| => r[j] as real)
  }

  function RealMatrix(m: seq<seq<int>>): (t: Matrix)
    ensures |t| == |m| && forall i :: 0 <= i < |m| ==> t[i] == RealRow(m[i])
  {
    seq(|m|, i requires 0 <= i < |m| => RealRow(m[i]))
  }

  predicate Valid(p: Problem) {
    TablesValid(RealMatrix(p.c), RealMatrix(p.f), RealRow(p.a), RealRow(p.b))
  }

  function ShapeOfProblem(p: Problem): Shape
    requires Valid(p)
  {
    ShapeOf(RealMatrix(p.c), RealMatrix(p.f))
  }

  /** The base-class call declares 3 * c.size() constraints. */
  function DeclaredConstraints(p: Problem): nat {
    3 * |p.c|
  }

  /** The three constraint loops of `fitness`, each pushing onto one vector:
      W coverage entries, then P capacity entries, then P tier-row entries. */
  method BuildConstraints(a: seq<real>, b: seq<real>, d: Layout, sh: Shape)
    returns (constraints: seq<real>)
    requires Fits(d, sh) && CapacityTablesCover(a, b, sh)
    ensures constraints == BlockConstraints(a, b, d, sh)
  {
    constraints := PushCoverage(d.x, sh, []);
    constraints := PushCapacity(a, b, d, sh, constraints);
    constraints := PushTiers(d.y, constraints);
    assert constraints == CoverageBlock(d.x, sh) + CapacityBlock(a, b, d, sh) + TierBlock(d.y);
  }

  /** The first loop: one `sum - 1` per well, pushed in well order. */
  method PushCoverage(x: Matrix, sh: Shape, acc: seq<real>) returns (out: seq<real>)
    requires IsMatrix(x, sh.platforms, sh.wells)
    ensures out == acc + CoverageBlock(x, sh)
  {
    var block := CoverageBlock(x, sh);
    out := acc;
    var j := 0;
    while j < sh.wells
      invariant j <= sh.wells
      invariant out == acc + block[..j]
    {
      var sum := ColumnSum(x, j);
      out := out + [sum - 1.0];
      assert block[..j + 1] == block[..j] + [sum - 1.0];
      j := j + 1;
    }
    assert block[..j] == block;
  }

  /** The second loop: one `sum1 - sum2` per platform, pushed in platform
      order. */
  method PushCapacity(a: seq<real>, b: seq<real>, d: Layout, sh: Shape, acc: seq<real>)
    returns (out: seq<real>)
    requires Fits(d, sh) && CapacityTablesCover(a, b, sh)
    ensures out == acc + CapacityBlock(a, b, d, sh)
  {
    var block := CapacityBlock(a, b, d, sh);
    out := acc;
    var i := 0;
    while i < sh.platforms
      invariant i <= sh.platforms
      invariant out == acc + block[..i]
    {
      var produced := WeightedRowSum(a, d.x[i]);
      var capacity := WeightedRowSum(b, d.y[i]);
      out := out + [produced - capacity];
      assert block[..i + 1] == block[..i] + [produced - capacity];
      i := i + 1;
    }
    assert block[..i] == block;
  }

  /** The third loop: one `sum - 1` per platform's tier row. */
  method PushTiers(y: Matrix, acc: seq<real>) returns (out: seq<real>)
    ensures out == acc + TierBlock(y)
  {
    var block := TierBlock(y);
    out := acc;
    var i := 0;
    while i < |y|
      invariant i <= |y|
      invariant out == acc + block[..i]
    {
      var tiers := RowSum(y[i]);
      out := out + [tiers - 1.0];
      assert block[..i + 1] == block[..i] + [tiers - 1.0];
      i := i + 1;
    }
    assert block[..i] == block;
  }

  /** `fitness`: decodes with the index walk, builds the constraint vector,
      and returns only the one-element vector holding minus the drilling
      and building cost; the constraint vector is discarded. A vector
      shorter than P*W + P*K is read past its end, which is an error here. */
  method Fitness(p: Problem, x: seq<real>) returns (r: Result<seq<real>, DecodeError>)
    requires Valid(p)
    ensures r.Success? <==> |x| >= ShapeOfProblem(p).VarCount()
    ensures r.Success? ==>
              var sh := ShapeOfProblem(p);
              r.value == [-Cost(RealMatrix(p.c), RealMatrix(p.f), Decode(x, sh).value, sh)]
  {
    var c, f, a, b := RealMatrix(p.c), RealMatrix(p.f), RealRow(p.a), RealRow(p.b);
    var sh := ShapeOf(c, f);
    var decoded, _ := DecodeByIndex(x, sh);
    if decoded.Failure? {
      return Failure(decoded.error);
    }
    var d := decoded.value;
    var constraints := BuildConstraints(a, b, d, sh);
    var objective := AccumulateCost(c, f, d, sh);
    r := Success([-objective]);
  }

  /** The constraint vector `fitness` builds has W + 2P entries, which is
      the declared 3 * c.size() only when there are as many wells as
      platforms. */
  lemma ConstraintCountMatchesIff(p: Problem, d: Layout)
    requires Valid(p) && Fits(d, ShapeOfProblem(p))
    ensures var sh := ShapeOfProblem(p);
            |BlockConstraints(RealRow(p.a), RealRow(p.b), d, sh)| == DeclaredConstraints(p)
            <==> sh.wells == sh.platforms
  {
  }

  /** `get_ub`: one upper bound of 1.0 per variable. */
  function UpperBounds(p: Problem): (ub: seq<real>)
    requires Valid(p)
    ensures |ub| == ShapeOfProblem(p).VarCount()
    ensures forall t :: 0 <= t < |ub| ==> ub[t] == 1.0
  {
    var sh := ShapeOfProblem(p);
    Constant(sh.platforms * sh.wells + sh.platforms * sh.capacities, 1.0)
  }

  /** `get_lb`: one lower bound of 0.0 per variable. */
  function LowerBounds(p: Problem): (lb: seq<real>)
    requires Valid(p)
    ensures |lb| == ShapeOfProblem(p).VarCount()
    ensures AllZero(lb)
  {
    var sh := ShapeOfProblem(p);
    Constant(sh.platforms * sh.wells + sh.platforms * sh.capacities, 0.0)
  }

  /** Every vector within the bounds decodes, and its cost is non-negative
      when the tables are. */
  lemma WithinBoundsDecodes(p: Problem, x: seq<real>)
    requires Valid(p)
    requires |x| == |LowerBounds(p)|
    requires forall t :: 0 <= t < |x| ==> LowerBounds(p)[t] <= x[t] <= UpperBounds(p)[t]
    requires forall i :: 0 <= i < |p.c| ==> NonNegative(RealRow(p.c[i]))
    requires forall i :: 0 <= i < |p.f| ==> NonNegative(RealRow(p.f[i]))
    ensures var sh := ShapeOfProblem(p);
            && Decode(x, sh).Success?
            && Cost(RealMatrix(p.c), RealMatrix(p.f), Decode(x, sh).value, sh) >= 0.0
  {
    var sh := ShapeOfProblem(p);
    var d := Decode(x, sh).value;
    forall i | 0 <= i < sh.platforms
      ensures NonNegative(d.x[i]) && NonNegative(d.y[i])
    {
      forall j | 0 <= j < sh.wells
        ensures d.x[i][j] >= 0.0
      {
        assert d.x[i][j] == x[sh.XIndex(i, j)];
      }
      forall k | 0 <= k < sh.capacities
        ensures d.y[i][k] >= 0.0
      {
        assert d.y[i][k] == x[sh.YIndex(i, k)];
      }
    }
    CostNonNegative(RealMatrix(p.c), RealMatrix(p.f), d, sh);
  }
}

=== FILE: plmpm_java.dfy ===
/** plmpm.java: the MOEA problem whose constraints are written into an
    array of the declared length at computed offsets. */
module PlmpmJava {
  import opened Results
  import opened Sums
  import opened Encoding
  import opened Evaluation
  import opened Loops

  datatype Problem = Problem(c: Matrix, f: Matrix, a: seq<real>, b: seq<real>)

  predicate Valid(p: Problem) {
    TablesValid(p.c, p.f, p.a, p.b)
  }

  function ShapeOfProblem(p: Problem): Shape
    requires Valid(p)
  {
    ShapeOf(p.c, p.f)
  }

  /** The constructor passes 3 * c.length constraints to `super`, and
      `getNumConstraints()`, the length of the array `evaluate` writes
      into, is read as that count. The class itself names no superclass. */
  function NumConstraints(p: Problem): nat {
    3 * |p.c|
  }

  /** A solution's objective 0 and its constraint array. */
  datatype Solution = Solution(objective: real, constraints: seq<real>)

  /** The two ways `evaluate` can throw: reading the vector past its end,
      or writing a constraint past the end of the array. */
  datatype EvalError =
    | ShortInput(expected: nat, actual: nat)
    | ConstraintIndexOutOfBounds(index: nat, length: nat)

  /** `evaluate`: decodes with the index walk, writes constraint `j` at
      `j`, capacity constraint `i` at `W + i` and tier-row constraint `i` at
      `W + P + i`, and sets objective 0 to minus the cost. The writes land
      at 0, 1, ..., W + 2P - 1 in that order, so they all fit exactly when
      W + 2P <= 3P, that is W <= P; otherwise the first write that does not
      fit is at index 3P. Entries past W + 2P keep the array's initial 0. */
  method Evaluate(p: Problem, x: seq<real>) returns (r: Result<Solution, EvalError>)
    requires Valid(p)
    ensures var sh := ShapeOfProblem(p);
            |x| < sh.VarCount() ==> r == Failure(ShortInput(sh.VarCount(), |x|))
    ensures var sh := ShapeOfProblem(p);
            |x| >= sh.VarCount() && sh.wells > sh.platforms ==>
              r == Failure(ConstraintIndexOutOfBounds(NumConstraints(p), NumConstraints(p)))
    ensures var sh := ShapeOfProblem(p);
            r.Success? <==> |x| >= sh.VarCount() && sh.wells <= sh.platforms
    ensures r.Success? ==>
              var sh := ShapeOfProblem(p);
              var d := Decode(x, sh).value;
              var n := sh.wells + 2 * sh.platforms;
              && r.value.objective == -Cost(p.c, p.f, d, sh)
              && |r.value.constraints| == NumConstraints(p)
              && r.value.constraints[..n] == BlockConstraints(p.a, p.b, d, sh)
              && AllZero(r.value.constraints[n..])
  {
    var sh := ShapeOf(p.c, p.f);
    var decoded, _ := DecodeByIndex(x, sh);
    if decoded.Failure? {
      return Failure(ShortInput(sh.VarCount(), |x|));
    }
    var d := decoded.value;
    var n := NumConstraints(p);
    var constraints, ok := WriteCoverage(d.x, sh, Constant(n, 0.0));
    if !ok {
      return Failure(ConstraintIndexOutOfBounds(n, n));
    }
    constraints, ok := WriteCapacity(p.a, p.b, d, sh, constraints);
    if !ok {
      return Failure(ConstraintIndexOutOfBounds(n, n));
    }
    constraints, ok := WriteTiers(p.a, p.b, d, sh, constraints);
    if !ok {
      return Failure(ConstraintIndexOutOfBounds(n, n));
    }
    var objective := AccumulateCost(p.c, p.f, d, sh);
    r := Success(Solution(-objective, constraints));
  }

  /** Lines `constraints[j] = sum - 1` for every well `j`. `ok` is false
      when index `j` reaches the array length, which is where the write
      throws. */
  method WriteCoverage(x: Matrix, sh: Shape, cs: seq<real>) returns (out: seq<real>, ok: bool)
    requires IsMatrix(x, sh.platforms, sh.wells) && AllZero(cs)
    ensures ok <==> sh.wells <= |cs|
    ensures ok ==> |out| == |cs| && out[..sh.wells] == CoverageBlock(x, sh)
                   && AllZero(out[sh.wells..])
  {
    out := cs;
    var j := 0;
    while j < sh.wells
      invariant j <= sh.wells && j <= |cs| && |out| == |cs|
      invariant out[..j] == CoverageBlock(x, sh)[..j]
      invariant AllZero(out[j..])
    {
      var sum := ColumnSum(x, j);
      if j >= |out| {
        return out, false;
      }
      out := out[j := sum - 1.0];
      j := j + 1;
      assert out[..j] == CoverageBlock(x, sh)[..j];
    }
    ok := true;
  }

  /** Lines `constraints[numWells + i] = sum1 - sum2` for every platform. */
  method WriteCapacity(a: seq<real>, b: seq<real>, d: Layout, sh: Shape, cs: seq<real>)
    returns (out: seq<real>, ok: bool)
    requires Fits(d, sh) && CapacityTablesCover(a, b, sh)
    requires sh.wells <= |cs| && cs[..sh.wells] == CoverageBlock(d.x, sh) && AllZero(cs[sh.wells..])
    ensures ok <==> sh.wells + sh.platforms <= |cs|
    ensures ok ==> |out| == |cs|
                   && out[..sh.wells + sh.platforms] == CoverageBlock(d.x, sh) + CapacityBlock(a, b, d, sh)
                   && AllZero(out[sh.wells + sh.platforms..])
  {
    var W := sh.wells;
    var done := CoverageBlock(d.x, sh) + CapacityBlock(a, b, d, sh);
    out := cs;
    var i := 0;
    while i < sh.platforms
      invariant i <= sh.platforms && W + i <= |cs| && |out| == |cs|
      invariant out[..W + i] == done[..W + i]
      invariant AllZero(out[W + i..])
    {
      var sum1 := WeightedRowSum(a, d.x[i]);
      var sum2 := WeightedRowSum(b, d.y[i]);
      if W + i >= |out| {
        return out, false;
      }
      out := out[W + i := sum1 - sum2];
      i := i + 1;
      assert out[..W + i] == done[..W + i];
    }
    ok := true;
  }

  /** Lines `constraints[numWells + numPlatforms + i] = sum - 1` for every
      platform. */
  method WriteTiers(a: seq<real>, b: seq<real>, d: Layout, sh: Shape, cs: seq<real>)
    returns (out: seq<real>, ok: bool)
    requires Fits(d, sh) && CapacityTablesCover(a, b, sh)
    requires sh.wells + sh.platforms <= |cs|
    requires cs[..sh.wells + sh.platforms] == CoverageBlock(d.x, sh) + CapacityBlock(a, b, d, sh)
    requires AllZero(cs[sh.wells + sh.platforms..])
    ensures ok <==> sh.wells + 2 * sh.platforms <= |cs|
    ensures ok ==> |out| == |cs|
                   && out[..sh.wells + 2 * sh.platforms] == BlockConstraints(a, b, d, sh)
                   && AllZero(out[sh.wells + 2 * sh.platforms..])
  {
    var base := sh.wells + sh.platforms;
    out := cs;
    var i := 0;
    while i < sh.platforms
      invariant i <= sh.platforms && base + i <= |cs| && |out| == |cs|
      invariant out[..base] == cs[..base]
      invariant forall i' :: 0 <= i' < i ==> out[base + i'] == RowSlack(d.y[i'])
      invariant AllZero(out[base + i..])
    {
      var sum := RowSum(d.y[i]);
      if base + i >= |out| {
        return out, false;
      }
      out := out[base + i := sum - 1.0];
      i := i + 1;
    }
    TiersComplete(a, b, d, sh, cs, out);
    ok := true;
  }

  /** Once every tier entry is written after the coverage and capacity
      entries, the written prefix is the whole block layout. */
  lemma TiersComplete(a: seq<real>, b: seq<real>, d: Layout, sh: Shape, cs: seq<real>, out: seq<real>)
    requires Fits(d, sh) && CapacityTablesCover(a, b, sh)
    requires sh.wells + 2 * sh.platforms <= |cs| == |out|
    requires cs[..sh.wells + sh.platforms] == CoverageBlock(d.x, sh) + CapacityBlock(a, b, d, sh)
    requires out[..sh.wells + sh.platforms] == cs[..sh.wells + sh.platforms]
    requires forall i :: 0 <= i < sh.platforms ==> out[sh.wells + sh.platforms + i] == RowSlack(d.y[i])
    ensures out[..sh.wells + 2 * sh.platforms] == BlockConstraints(a, b, d, sh)
  {
    var base := sh.wells + sh.platforms;
    var done := BlockConstraints(a, b, d, sh);
    assert done[..base] == cs[..base] by {
      assert done == cs[..base] + TierBlock(d.y);
    }
    forall t | 0 <= t < |done|
      ensures out[t] == done[t]
    {
      if t < base {
        assert out[t] == out[..base][t] == done[..base][t];
      }
    }
  }

  /** What `newSolution` declares: one objective, 3 * c.length
      constraints, and one real variable block of P*W + P*K entries, each
      between 0 and 1. */
  datatype Template = Template(nObj: nat, nConstr: nat, length: nat, lower: real, upper: real)

  function NewSolution(p: Problem): (t: Template)
    requires Valid(p)
    ensures t.length == ShapeOfProblem(p).VarCount()
    ensures t.nObj == 1 && t.nConstr == NumConstraints(p)
    ensures t.lower == 0.0 && t.upper == 1.0
  {
    var sh := ShapeOfProblem(p);
    Template(1, NumConstraints(p), sh.platforms * sh.wells + sh.platforms * sh.capacities, 0.0, 1.0)
  }
}

=== FILE: plmpm_jmetal.dfy ===
/** plmpm-jmetal.py: the jMetal float problem with one objective and the
    block layout of constraints. */
module PlmpmJmetal {
  import opened Results
  import opened Sums
  import opened Encoding
  import opened Evaluation

  datatype Problem = Problem(c: Matrix, f: Matrix, a: seq<real>, b: seq<real>)

  predicate Valid(p: Problem) {
    TablesValid(p.c, p.f, p.a, p.b)
  }

  function ShapeOfProblem(p: Problem): Shape
    requires Valid(p)
  {
    ShapeOf(p.c, p.f)
  }

  /** What the constructor computes: `n_var` is a local that sizes the
      bounds arrays, and only those arrays are set on the problem. None of
      the three counts (variables, objectives, constraints) reaches the
      base class. */
  datatype VariableBounds = VariableBounds(nVar: nat, lower: seq<real>, upper: seq<real>)

  /** The constructor: P*W + P*K variables, each bounded by 0 and 1. */
  function Init(p: Problem): (bd: VariableBounds)
    requires Valid(p)
    ensures bd.nVar == ShapeOfProblem(p).VarCount()
    ensures |bd.lower| == bd.nVar && |bd.upper| == bd.nVar
    ensures AllZero(bd.lower) && forall t :: 0 <= t < |bd.upper| ==> bd.upper[t] == 1.0
  {
    var sh := ShapeOfProblem(p);
    var n := sh.platforms * sh.wells + sh.platforms * sh.capacities;
    VariableBounds(n, Constant(n, 0.0), Constant(n, 1.0))
  }

  /** The objective and constraints `evaluate` stores on the solution. */
  datatype Solution = Solution(objective: real, constraints: seq<real>)

  /** `evaluate`: slices the variables into x and y, appends one coverage
      entry per well, one capacity entry per platform and one tier entry
      per platform, and stores minus the cost as the objective. A vector
      too short for the slices fails when an entry past its end is read. */
  function Evaluate(p: Problem, v: seq<real>): (r: Result<Solution, DecodeError>)
    requires Valid(p)
    ensures var sh := ShapeOfProblem(p);
            && (r.Success? <==> |v| >= sh.VarCount())
            && (r.Failure? ==> r.error == ShortVector(sh.VarCount(), |v|))
    ensures r.Success? ==>
              var sh := ShapeOfProblem(p);
              var d := Decode(v, sh).value;
              && r.value.objective == -(WeightedTotal(p.c, d.x) + WeightedTotal(p.f, d.y))
              && IsBlockLayout(r.value.constraints, p.a, p.b, d, sh)
  {
    var sh := ShapeOfProblem(p);
    match Decode(v, sh)
    case Failure(e) => Failure(e)
    case Success(d) =>
      Success(Solution(-Cost(p.c, p.f, d, sh), BlockConstraints(p.a, p.b, d, sh)))
  }

  /** The objective is linear in the decision vector: the vector with a
      single 1 at the index of slot `s` scores minus the drilling cost of
      that assignment, or minus the building cost of that tier. */
  lemma UnitVectorObjective(p: Problem, s: Slot)
    requires Valid(p) && ValidSlot(ShapeOfProblem(p), s)
    ensures var sh := ShapeOfProblem(p);
            var r := Evaluate(p, Unit(sh.VarCount(), IndexOf(sh, s)));
            && r.Success?
            && r.value.objective == -(match s
                                      case Assignment(i, j) => p.c[i][j]
                                      case Tier(i, k) => p.f[i][k])
  {
    var sh := ShapeOfProblem(p);
    UnitVectorCost(p.c, p.f, sh, s);
  }
}

=== FILE: plmpm_py.dfy ===
/** plmpm.py: the three-objective problem with one (g1, g2, g3) constraint
    triplet per platform. */
module PlmpmPy {
  import opened Results
  import opened Sums
  import opened Encoding
  import opened Evaluation

  /** The constructor's arguments: the shape given explicitly, the cost,
      production and capacity tables, and the four damage tables. */
  datatype Problem = Problem(shape: Shape, c: Matrix, f: Matrix, a: seq<real>, b: seq<real>,
                             dw: seq<real>, dq: Matrix, dO: seq<real>, dp: Matrix)

  /** Every table can be read wherever the evaluation reads it. */
  predicate Valid(p: Problem) {
    && CostTablesCover(p.c, p.f, p.shape)
    && CapacityTablesCover(p.a, p.b, p.shape)
    && DamageTablesCover(p.dw, p.dq, p.dO, p.dp, p.shape)
  }

  /** The bounds arrays are built with the fixed length 36, whatever the shape. */
  const BoundsLength: nat := 36

  /** What the constructor declares: P*W + P*K variables, three objectives,
      3*P constraints, and bounds arrays of zeros and ones. */
  function Declare(p: Problem): (dc: Declaration)
    ensures dc.nVar == p.shape.VarCount() && dc.nObj == 3 && dc.nConstr == 3 * p.shape.platforms
    ensures |dc.lower| == |dc.upper| == BoundsLength
    ensures AllZero(dc.lower) && forall t :: 0 <= t < |dc.upper| ==> dc.upper[t] == 1.0
  {
    var sh := p.shape;
    Declaration(sh.platforms * sh.wells + sh.platforms * sh.capacities, 3, 3 * sh.platforms,
                Constant(BoundsLength, 0.0), Constant(BoundsLength, 1.0))
  }

  /** The bounds arrays describe the decision vector only when
      P * (W + K) is 36. */
  lemma BoundsFitIff(p: Problem)
    ensures |Declare(p).lower| == Declare(p).nVar
            <==> p.shape.platforms * (p.shape.wells + p.shape.capacities) == 36
  {
    var sh := p.shape;
    assert sh.platforms * (sh.wells + sh.capacities) == sh.platforms * sh.wells + sh.platforms * sh.capacities;
  }

  /** Decodes the vector by slicing, then computes z1, z2, z3 and the
      constraint triplets of every platform. A vector too short for the
      slices raises when an entry past its end is read; with no platforms
      the constraint list stays empty and `np.column_stack` rejects it. */
  function Evaluate(p: Problem, v: seq<real>): (r: Result<Outputs, NumpyError>)
    requires Valid(p)
    ensures r.Success? <==> |v| >= p.shape.VarCount() && p.shape.platforms > 0
    ensures |v| < p.shape.VarCount() ==>
              r == Failure(ReadPastEnd(ShortVector(p.shape.VarCount(), |v|)))
    ensures |v| >= p.shape.VarCount() && p.shape.platforms == 0 ==> r == Failure(EmptyColumnStack)
    ensures r.Success? ==>
              && |r.value.objectives| == Declare(p).nObj
              && |r.value.constraints| == Declare(p).nConstr
  {
    match Decode(v, p.shape)
    case Failure(e) => Failure(ReadPastEnd(e))
    case Success(d) =>
      if p.shape.platforms == 0 then Failure(EmptyColumnStack)
      else
        var z1 := Cost(p.c, p.f, d, p.shape);
        var z2 := NegatedProduction(p.a, d.x);
        var z3 := Damage(p.dw, p.dq, p.dO, p.dp, d, p.shape);
        Success(Outputs([z1, z2, z3], TripletConstraints(p.a, p.b, d, p.shape, p.shape.platforms)))
  }

  /** The objectives of a successful evaluation: z1 the drilling-plus-
      building cost, z2 the negated production, z3 the damage split into
      well, connection, platform and tier parts. `Production(p.dw, d.x)`
      is only the dw-weighted assignment total, the well part of z3. */
  lemma Objectives(p: Problem, v: seq<real>)
    requires Valid(p) && |v| >= p.shape.VarCount() && p.shape.platforms > 0
    ensures var d := Decode(v, p.shape).value;
            var F := Evaluate(p, v).value.objectives;
            && F[0] == WeightedTotal(p.c, d.x) + WeightedTotal(p.f, d.y)
            && F[1] == -Production(p.a, d.x)
            && F[2] == Production(p.dw, d.x) + WeightedTotal(p.dq, d.x)
                       + Dot(p.dO, RowTotals(d.y)) + WeightedTotal(p.dp, d.y)
  {
    var d := Decode(v, p.shape).value;
    NegatedProductionIsMinusProduction(p.a, d.x);
    DamageSplits(p.dw, p.dq, p.dO, p.dp, d, p.shape);
  }

  /** Constraint entries 3i, 3i+1 and 3i+2 are g1, g2 and g3 of platform i:
      the sum of its well row minus one, the sum of its tier row minus one,
      and its assigned production minus its selected capacity. */
  lemma Constraints(p: Problem, v: seq<real>, i: nat)
    requires Valid(p) && |v| >= p.shape.VarCount() && i < p.shape.platforms
    ensures var d := Decode(v, p.shape).value;
            var G := Evaluate(p, v).value.constraints;
            && G[3 * i] == Sum(d.x[i]) - 1.0
            && G[3 * i + 1] == Sum(d.y[i]) - 1.0
            && G[3 * i + 2] == Dot(p.a, d.x[i]) - Dot(p.b, d.y[i])
  {
  }

  /** z1 reads only the cost tables, z2 only the production table, z3 only
      the damage tables, and the constraints only production and capacity. */
  lemma DependsOnlyOn(p: Problem, q: Problem, v: seq<real>)
    requires Valid(p) && Valid(q) && p.shape == q.shape
    requires |v| >= p.shape.VarCount() && p.shape.platforms > 0
    ensures p.c == q.c && p.f == q.f ==>
              Evaluate(p, v).value.objectives[0] == Evaluate(q, v).value.objectives[0]
    ensures p.a == q.a ==>
              Evaluate(p, v).value.objectives[1] == Evaluate(q, v).value.objectives[1]
    ensures p.dw == q.dw && p.dq == q.dq && p.dO == q.dO && p.dp == q.dp ==>
              Evaluate(p, v).value.objectives[2] == Evaluate(q, v).value.objectives[2]
    ensures p.a == q.a && p.b == q.b ==>
              Evaluate(p, v).value.constraints == Evaluate(q, v).value.constraints
  {
  }

  /** The all-zero vector costs, produces and damages nothing; every g1
      and g2 is -1 and every g3 is 0. */
  lemma ZeroVector(p: Problem, i: nat)
    requires Valid(p) && i < p.shape.platforms
    ensures var r := Evaluate(p, Constant(p.shape.VarCount(), 0.0));
            && r.Success?
            && r.value.objectives == [0.0, 0.0, 0.0]
            && r.value.constraints[3 * i] == -1.0
            && r.value.constraints[3 * i + 1] == -1.0
            && r.value.constraints[3 * i + 2] == 0.0
  {
    var sh := p.shape;
    var v := Constant(sh.VarCount(), 0.0);
    var d := Decode(v, sh).value;
    ZeroVectorDecodesToZeros(sh);
    ZeroLayoutSums(p, d);
    Constraints(p, v, i);
    SumOfZeros(d.x[i]);
    SumOfZeros(d.y[i]);
    ZeroDot(p.a, d.x[i]);
    ZeroDot(p.b, d.y[i]);
  }

  lemma ZeroVectorDecodesToZeros(sh: Shape)
    ensures var d := Decode(Constant(sh.VarCount(), 0.0), sh).value;
            forall i :: 0 <= i < sh.platforms ==> AllZero(d.x[i]) && AllZero(d.y[i])
  {
  }

  lemma ZeroDot(w: seq<real>, r: seq<real>)
    requires |r| <= |w| && AllZero(r)
    ensures Dot(w, r) == 0.0
  {
    SumOfZeros(Products(w, r));
  }

  lemma ZeroLayoutSums(p: Problem, d: Layout)
    requires Valid(p) && Fits(d, p.shape)
    requires forall i :: 0 <= i < p.shape.platforms ==> AllZero(d.x[i]) && AllZero(d.y[i])
    ensures Cost(p.c, p.f, d, p.shape) == 0.0
    ensures NegatedProduction(p.a, d.x) == 0.0
    ensures Damage(p.dw, p.dq, p.dO, p.dp, d, p.shape) == 0.0
  {
    var sh := p.shape;
    forall i | 0 <= i < sh.platforms
      ensures Dot(p.c[i], d.x[i]) == 0.0 && Dot(p.f[i], d.y[i]) == 0.0
      ensures Dot(p.a, d.x[i]) == 0.0
      ensures Dot(p.dq[i], d.x[i]) == 0.0 && Dot(p.dw, d.x[i]) == 0.0
      ensures Dot(p.dp[i], d.y[i]) == 0.0 && Sum(d.y[i]) == 0.0
    {
      ZeroDot(p.c[i], d.x[i]);
      ZeroDot(p.f[i], d.y[i]);
      ZeroDot(p.a, d.x[i]);
      ZeroDot(p.dq[i], d.x[i]);
      ZeroDot(p.dw, d.x[i]);
      ZeroDot(p.dp[i], d.y[i]);
      SumOfZeros(d.y[i]);
    }
    SumOfZeros(PairedDots(p.c, d.x));
    SumOfZeros(PairedDots(p.f, d.y));
    SumOfZeros(SharedDots(p.a, d.x));
    SumOfZeros(SharedDots(p.dw, d.x));
    SumOfZeros(PairedDots(p.dq, d.x));
    SumOfZeros(PairedDots(p.dp, d.y));
    SumOfZeros(Products(p.dO, RowTotals(d.y)));
    NegatedProductionIsMinusProduction(p.a, d.x);
    DamageSplits(p.dw, p.dq, p.dO, p.dp, d, p.shape);
  }
}

=== FILE: plmpm_pymoo1.dfy ===
/** plmpm-pymoo-1.py: the single-objective pymoo problem that declares
    3*P constraints but returns the block layout of W + 2P entries. */
module PlmpmPymoo1 {
  import opened Results
  import opened Sums
  import opened Encoding
  import opened Evaluation

  datatype Problem = Problem(c: Matrix, f: Matrix, a: seq<real>, b: seq<real>)

  predicate Valid(p: Problem) {
    TablesValid(p.c, p.f, p.a, p.b)
  }

  function ShapeOfProblem(p: Problem): Shape
    requires Valid(p)
  {
    ShapeOf(p.c, p.f)
  }

  /** The constructor: P*W + P*K variables, one objective, 3*P
      constraints, and the scalar bounds 0 and 1 applied to every
      variable. */
  function Declare(p: Problem): (dc: Declaration)
    requires Valid(p)
    ensures var sh := ShapeOfProblem(p);
            && dc.nVar == sh.VarCount() && dc.nObj == 1 && dc.nConstr == 3 * sh.platforms
            && |dc.lower| == dc.nVar && |dc.upper| == dc.nVar
            && AllZero(dc.lower) && forall t :: 0 <= t < |dc.upper| ==> dc.upper[t] == 1.0
  {
    var sh := ShapeOfProblem(p);
    var n := sh.platforms * sh.wells + sh.platforms * sh.capacities;
    Declaration(n, 1, 3 * sh.platforms, Constant(n, 0.0), Constant(n, 1.0))
  }

  /** `_evaluate`: F holds minus the cost; G holds the coverage entry of
      every well, then the capacity entry and the tier entry of every
      platform. A vector too short for the slices raises when an entry
      past its end is read; with no variables at all the objective stays
      the integer 0 and `reshape` raises. */
  function Evaluate(p: Problem, v: seq<real>): (r: Result<Outputs, NumpyError>)
    requires Valid(p)
    ensures var sh := ShapeOfProblem(p);
            && (r.Success? <==> |v| >= sh.VarCount() && sh.VarCount() > 0)
            && (|v| < sh.VarCount() ==> r == Failure(ReadPastEnd(ShortVector(sh.VarCount(), |v|))))
            && (sh.VarCount() == 0 ==> r == Failure(IntegerObjective))
    ensures r.Success? ==>
              var sh := ShapeOfProblem(p);
              var d := Decode(v, sh).value;
              && |r.value.objectives| == Declare(p).nObj
              && r.value.objectives[0] == -(WeightedTotal(p.c, d.x) + WeightedTotal(p.f, d.y))
              && IsBlockLayout(r.value.constraints, p.a, p.b, d, sh)
  {
    var sh := ShapeOfProblem(p);
    match Decode(v, sh)
    case Failure(e) => Failure(ReadPastEnd(e))
    case Success(d) =>
      if sh.VarCount() == 0 then Failure(IntegerObjective)
      else Success(Outputs([-Cost(p.c, p.f, d, sh)], BlockConstraints(p.a, p.b, d, sh)))
  }

  /** The returned G has the declared number of entries exactly when there
      are as many wells as platforms. */
  lemma ConstraintCountIff(p: Problem, v: seq<real>)
    requires Valid(p) && |v| >= ShapeOfProblem(p).VarCount() && ShapeOfProblem(p).VarCount() > 0
    ensures |Evaluate(p, v).value.constraints| == Declare(p).nConstr
            <==> ShapeOfProblem(p).wells == ShapeOfProblem(p).platforms
  {
  }

  /** A candidate is feasible (every entry of G at most 0) exactly when
      every well is served at most once, every platform's production fits
      its selected capacity, and every platform selects at most one tier. */
  lemma FeasibleIff(p: Problem, v: seq<real>)
    requires Valid(p) && |v| >= ShapeOfProblem(p).VarCount() && ShapeOfProblem(p).VarCount() > 0
    ensures var sh := ShapeOfProblem(p);
            var d := Decode(v, sh).value;
            Satisfied(Evaluate(p, v).value.constraints)
            <==> && (forall j :: 0 <= j < sh.wells ==> Sum(Column(d.x, j)) <= 1.0)
                 && (forall i :: 0 <= i < sh.platforms ==> Dot(p.a, d.x[i]) <= Dot(p.b, d.y[i]))
                 && (forall i :: 0 <= i < sh.platforms ==> Sum(d.y[i]) <= 1.0)
  {
    var sh := ShapeOfProblem(p);
    BlockSatisfiedIff(p.a, p.b, Decode(v, sh).value, sh);
  }
}

=== FILE: plmpm_pymoo2.dfy ===
/** plmpm-pymoo-2.py: the pymoo problem over drilling and building costs
    only, which declares no constraints but returns W + P of them. */
module PlmpmPymoo2 {
  import opened Results
  import opened Sums
  import opened Encoding
  import opened Evaluation

  datatype Problem = Problem(c: Matrix, f: Matrix)

  predicate Valid(p: Problem) {
    CostTablesValid(p.c, p.f)
  }

  function ShapeOfProblem(p: Problem): Shape
    requires Valid(p)
  {
    ShapeOf(p.c, p.f)
  }

  /** The constructor: P*W + P*K variables, one objective, no
      constraints, bounds 0 and 1 on every variable. */
  function Declare(p: Problem): (dc: Declaration)
    requires Valid(p)
    ensures var sh := ShapeOfProblem(p);
            && dc.nVar == sh.VarCount() && dc.nObj == 1 && dc.nConstr == 0
            && |dc.lower| == dc.nVar && |dc.upper| == dc.nVar
            && AllZero(dc.lower) && forall t :: 0 <= t < |dc.upper| ==> dc.upper[t] == 1.0
  {
    var sh := ShapeOfProblem(p);
    var n := sh.platforms * sh.wells + sh.platforms * sh.capacities;
    Declaration(n, 1, 0, Constant(n, 0.0), Constant(n, 1.0))
  }

  /** `_evaluate`: F holds minus the cost; G holds the coverage entry of
      every well followed by the tier entry of every platform. There is no
      capacity entry. A vector too short for the slices raises when an entry
      past its end is read; with no variables at all the objective stays
      the integer 0 and `reshape` raises. */
  function Evaluate(p: Problem, v: seq<real>): (r: Result<Outputs, NumpyError>)
    requires Valid(p)
    ensures var sh := ShapeOfProblem(p);
            && (r.Success? <==> |v| >= sh.VarCount() && sh.VarCount() > 0)
            && (|v| < sh.VarCount() ==> r == Failure(ReadPastEnd(ShortVector(sh.VarCount(), |v|))))
            && (sh.VarCount() == 0 ==> r == Failure(IntegerObjective))
    ensures r.Success? ==>
              var sh := ShapeOfProblem(p);
              var d := Decode(v, sh).value;
              && |r.value.objectives| == Declare(p).nObj
              && r.value.objectives[0] == -(WeightedTotal(p.c, d.x) + WeightedTotal(p.f, d.y))
              && IsCoverageTierLayout(r.value.constraints, d, sh)
  {
    var sh := ShapeOfProblem(p);
    match Decode(v, sh)
    case Failure(e) => Failure(ReadPastEnd(e))
    case Success(d) =>
      if sh.VarCount() == 0 then Failure(IntegerObjective)
      else Success(Outputs([-Cost(p.c, p.f, d, sh)], CoverageBlock(d.x, sh) + TierBlock(d.y)))
  }

  /** The returned G never has the declared number of entries: there is
      at least one platform, so W + P is positive while 0 are declared. */
  lemma ConstraintCountNeverMatches(p: Problem, v: seq<real>)
    requires Valid(p) && |v| >= ShapeOfProblem(p).VarCount() && ShapeOfProblem(p).VarCount() > 0
    ensures |Evaluate(p, v).value.constraints| > Declare(p).nConstr
  {
  }

  /** A candidate is feasible exactly when every well is served at most
      once and every platform selects at most one tier; production and
      capacity play no part. */
  lemma FeasibleIff(p: Problem, v: seq<real>)
    requires Valid(p) && |v| >= ShapeOfProblem(p).VarCount() && ShapeOfProblem(p).VarCount() > 0
    ensures var sh := ShapeOfProblem(p);
            var d := Decode(v, sh).value;
            Satisfied(Evaluate(p, v).value.constraints)
            <==> && (forall j :: 0 <= j < sh.wells ==> Sum(Column(d.x, j)) <= 1.0)
                 && (forall i :: 0 <= i < sh.platforms ==> Sum(d.y[i]) <= 1.0)
  {
    var sh := ShapeOfProblem(p);
    CoverageAndTierSatisfiedIff(Decode(v, sh).value, sh);
  }
}

=== FILE: results.dfy ===
/** A success-or-error value, used wherever the modelled program would raise
    an exception or read out of bounds. */
module Results {

  datatype Result<+T, +E> = Success(value: T) | Failure(error: E)
}

=== FILE: sums.dfy ===
/** Exact finite sums over real-valued sequences and matrices.
    Every objective and constraint of the problem is built from these. */
module Sums {

  type Matrix = seq<seq<real>>

  predicate NonNegative(s: seq<real>) {
    forall i :: 0 <= i < |s| ==> s[i] >= 0.0
  }

  predicate AllZero(s: seq<real>) {
    forall i :: 0 <= i < |s| ==> s[i] == 0.0
  }

  /** `rows` rows of exactly `cols` entries each. */
  predicate IsMatrix(m: Matrix, rows: nat, cols: nat) {
    |m| == rows && forall i :: 0 <= i < rows ==> |m[i]| == cols
  }

  /** A parameter table that can be read at every index `[i][j]` with
      `i < rows` and `j < cols` (extra rows or columns are never read). */
  predicate Covers(t: Matrix, rows: nat, cols: nat) {
    |t| >= rows && forall i :: 0 <= i < rows ==> |t[i]| >= cols
  }

  /** `w` can weight every entry of `m` position by position. */
  predicate Weighs(w: Matrix, m: Matrix) {
    |w| >= |m| && forall i :: 0 <= i < |m| ==> |m[i]| <= |w[i]|
  }

  function Constant(n: nat, v: real): seq<real> {
    seq(n, _ => v)
  }

  /** The sum of a sequence, accumulated from the front as the source's
      loops and `sum(...)` calls do. */
  function Sum(s: seq<real>): real
    decreases |s|
  {
    if |s| == 0 then 0.0 else Sum(s[..|s| - 1]) + s[|s| - 1]
  }

  /** A sum of non-negative terms is non-negative. */
  lemma {:induction false} SumNonNegative(s: seq<real>)
    requires NonNegative(s)
    ensures Sum(s) >= 0.0
    decreases |s|
  {
    if |s| > 0 {
      SumNonNegative(s[..|s| - 1]);
    }
  }

  /** A sum of zeros is zero. */
  lemma {:induction false} SumOfZeros(s: seq<real>)
    requires AllZero(s)
    ensures Sum(s) == 0.0
    decreases |s|
  {
    if |s| > 0 {
      SumOfZeros(s[..|s| - 1]);
    }
  }

  /** Products `w[j] * r[j]` for every position of `r`. */
  function Products(w: seq<real>, r: seq<real>): seq<real>
    requires |r| <= |w|
  {
    seq(|r|, j requires 0 <= j < |r| => w[j] * r[j])
  }

  /** The weighted sum `sum_j w[j] * r[j]` over the positions of `r`. */
  function Dot(w: seq<real>, r: seq<real>): real
    requires |r| <= |w|
  {
    Sum(Products(w, r))
  }

  /** Column `j` of a matrix, top to bottom. */
  function Column(m: Matrix, j: nat): seq<real>
    requires forall i :: 0 <= i < |m| ==> j < |m[i]|
  {
    seq(|m|, i requires 0 <= i < |m| => m[i][j])
  }

  /** The row sums of a matrix. */
  function RowTotals(m: Matrix): seq<real> {
    seq(|m|, i requires 0 <= i < |m| => Sum(m[i]))
  }

  /** The column sums of a matrix whose rows all have `cols` entries. */
  function ColumnTotals(m: Matrix, cols: nat): seq<real>
    requires forall i :: 0 <= i < |m| ==> |m[i]| == cols
  {
    seq(cols, j requires 0 <= j < cols => Sum(Column(m, j)))
  }

  /** Row `i` of `m` weighted by row `i` of `w`, for every row. */
  function PairedDots(w: Matrix, m: Matrix): seq<real>
    requires Weighs(w, m)
  {
    seq(|m|, i requires 0 <= i < |m| => Dot(w[i], m[i]))
  }

  /** Every row of `m` weighted by the same weights `w`. */
  function SharedDots(w: seq<real>, m: Matrix): seq<real>
    requires forall i :: 0 <= i < |m| ==> |m[i]| <= |w|
  {
    seq(|m|, i requires 0 <= i < |m| => Dot(w, m[i]))
  }

  /** `sum_i sum_j w[i][j] * m[i][j]`, row by row. */
  function WeightedTotal(w: Matrix, m: Matrix): real
    requires Weighs(w, m)
  {
    Sum(PairedDots(w, m))
  }

  lemma SumPrefixStep(s: seq<real>, n: nat)
    requires n < |s|
    ensures Sum(s[..n + 1]) == Sum(s[..n]) + s[n]
  {
    assert s[..n + 1][..n] == s[..n];
  }

  lemma DotPrefixStep(w: seq<real>, r: seq<real>, n: nat)
    requires n < |r| <= |w|
    ensures Dot(w, r[..n + 1]) == Dot(w, r[..n]) + w[n] * r[n]
  {
    var longer, shorter := Products(w, r[..n + 1]), Products(w, r[..n]);
    assert forall j :: 0 <= j < n ==> longer[j] == shorter[j];
    assert longer[..n] == shorter;
  }

  /** Sums distribute over a position-by-position addition. */
  lemma {:induction false} SumOfPointwiseSum(s: seq<real>, t: seq<real>, u: seq<real>)
    requires |s| == |t| == |u|
    requires forall i :: 0 <= i < |u| ==> u[i] == s[i] + t[i]
    ensures Sum(u) == Sum(s) + Sum(t)
    decreases |u|
  {
    if |u| > 0 {
      var n := |u| - 1;
      SumOfPointwiseSum(s[..n], t[..n], u[..n]);
    }
  }

  /** A common factor can be taken out of a sum. */
  lemma {:induction false} SumOfScaled(s: seq<real>, c: real, u: seq<real>)
    requires |s| == |u|
    requires forall i :: 0 <= i < |u| ==> u[i] == c * s[i]
    ensures Sum(u) == c * Sum(s)
    decreases |u|
  {
    if |u| > 0 {
      var n := |u| - 1;
      var s', u' := s[..n], u[..n];
      SumOfScaled(s', c, u');
      var before, scaled := Sum(s'), Sum(u');
      assert Sum(u) == scaled + u[n];
      assert Sum(s) == before + s[n];
      assert c * before + c * s[n] == c * (before + s[n]);
    }
  }

  lemma Distribute(c: real, x: real, y: real)
    ensures (x + y) * c == x * c + y * c
  {
  }

  /** Terms `(w[k] + q[k]) * r[k]` add up to two dot products. */
  lemma SumOfPairedProducts(w: seq<real>, q: seq<real>, r: seq<real>, u: seq<real>)
    requires |r| <= |w| && |r| <= |q| && |u| == |r|
    requires forall k :: 0 <= k < |u| ==> u[k] == (w[k] + q[k]) * r[k]
    ensures Sum(u) == Dot(w, r) + Dot(q, r)
  {
    var s, t := Products(w, r), Products(q, r);
    forall k | 0 <= k < |u|
      ensures u[k] == s[k] + t[k]
    {
      Distribute(r[k], w[k], q[k]);
    }
    SumOfPointwiseSum(s, t, u);
  }

  /** Terms `(a + b[k]) * r[k]` add up to `a` times the sum of `r` plus a
      dot product. */
  lemma SumOfShiftedProducts(a: real, b: seq<real>, r: seq<real>, u: seq<real>)
    requires |r| <= |b| && |u| == |r|
    requires forall k :: 0 <= k < |u| ==> u[k] == (a + b[k]) * r[k]
    ensures Sum(u) == a * Sum(r) + Dot(b, r)
  {
    var w := Constant(|r|, a);
    ConstantWeights(a, b, r, u);
    SumOfPairedProducts(w, b, r, u);
    DotOfConstant(a, r);
  }

  /** The shift `a` is the constant weight vector at every position. */
  lemma ConstantWeights(a: real, b: seq<real>, r: seq<real>, u: seq<real>)
    requires |r| <= |b| && |u| == |r|
    requires forall k :: 0 <= k < |u| ==> u[k] == (a + b[k]) * r[k]
    ensures forall k :: 0 <= k < |u| ==> u[k] == (Constant(|r|, a)[k] + b[k]) * r[k]
  {
    var w := Constant(|r|, a);
    forall k | 0 <= k < |u|
      ensures u[k] == (w[k] + b[k]) * r[k]
    {
      assert w[k] == a;
    }
  }

  /** A dot product with a constant vector scales the sum. */
  lemma {:induction false} DotOfConstant(a: real, r: seq<real>)
    ensures Dot(Constant(|r|, a), r) == a * Sum(r)
    decreases |r|
  {
    if |r| > 0 {
      var n := |r| - 1;
      var r' := r[..n];
      DotOfConstant(a, r');
      var s, s' := Products(Constant(|r|, a), r), Products(Constant(n, a), r');
      forall k | 0 <= k < n
        ensures s[k] == s'[k]
      {
        assert Constant(|r|, a)[k] == a == Constant(n, a)[k];
      }
      assert s[..n] == s';
      assert Constant(|r|, a)[n] == a;
      var before := Sum(r');
      assert Sum(r) == before + r[n];
      assert Sum(s) == Sum(s') + s[n];
      assert a * before + a * r[n] == a * (before + r[n]);
    }
  }

  /** A sum of non-negative terms one of which is positive is positive. */
  lemma {:induction false} SumPositive(s: seq<real>, k: nat)
    requires NonNegative(s)
    requires k < |s| && s[k] > 0.0
    ensures Sum(s) > 0.0
    decreases |s|
  {
    var n := |s| - 1;
    if k < n {
      SumPositive(s[..n], k);
    } else {
      SumNonNegative(s[..n]);
    }
  }

  /** A sum with a single possibly non-zero term is that term. */
  lemma {:induction false} SumOfSingleton(s: seq<real>, k: nat)
    requires k < |s|
    requires forall i :: 0 <= i < |s| && i != k ==> s[i] == 0.0
    ensures Sum(s) == s[k]
    decreases |s|
  {
    var n := |s| - 1;
    if k < n {
      SumOfSingleton(s[..n], k);
    } else {
      SumOfZeros(s[..n]);
    }
  }

  /** Adding up all entries row by row gives the same total as adding them
      up column by column. */
  lemma {:induction false} RowsThenColumns(m: Matrix, cols: nat)
    requires forall i :: 0 <= i < |m| ==> |m[i]| == cols
    ensures Sum(RowTotals(m)) == Sum(ColumnTotals(m, cols))
    decreases |m|
  {
    if |m| == 0 {
      forall j | 0 <= j < cols
        ensures ColumnTotals(m, cols)[j] == 0.0
      {
        assert Column(m, j) == [];
      }
      SumOfZeros(ColumnTotals(m, cols));
    } else {
      var n := |m| - 1;
      RowsThenColumns(m[..n], cols);
      assert RowTotals(m)[..n] == RowTotals(m[..n]);
      ColumnTotalsStep(m, cols);
    }
  }

  /** Adding the last row to a matrix adds that row's entries to the
      column totals. */
  lemma ColumnTotalsStep(m: Matrix, cols: nat)
    requires |m| > 0 && forall i :: 0 <= i < |m| ==> |m[i]| == cols
    ensures Sum(ColumnTotals(m, cols))
            == Sum(ColumnTotals(m[..|m| - 1], cols)) + Sum(m[|m| - 1])
  {
    var n := |m| - 1;
    var before := ColumnTotals(m[..n], cols);
    var after := ColumnTotals(m, cols);
    forall j | 0 <= j < cols
      ensures after[j] == before[j] + m[n][j]
    {
      assert Column(m, j)[..n] == Column(m[..n], j);
    }
    SumOfPointwiseSum(before, m[n], after);
  }

  /** `m` holds 1 at row `i`, column `k`, and 0 everywhere else. */
  predicate SingleOne(m: Matrix, i: nat, k: nat) {
    forall i', k' :: 0 <= i' < |m| && 0 <= k' < |m[i']| ==>
      m[i'][k'] == (if i' == i && k' == k then 1.0 else 0.0)
  }

  predicate ZeroMatrix(m: Matrix) {
    forall i :: 0 <= i < |m| ==> AllZero(m[i])
  }

  /** Weighting a matrix with a single 1 picks out that entry's weight. */
  lemma WeightedTotalOfSingleOne(w: Matrix, m: Matrix, i: nat, k: nat)
    requires Weighs(w, m) && i < |m| && k < |m[i]| && SingleOne(m, i, k)
    ensures WeightedTotal(w, m) == w[i][k]
  {
    var rows := PairedDots(w, m);
    forall i' | 0 <= i' < |m| && i' != i
      ensures rows[i'] == 0.0
    {
      SumOfZeros(Products(w[i'], m[i']));
    }
    SumOfSingleton(Products(w[i], m[i]), k);
    SumOfSingleton(rows, i);
  }

  /** Weighting a zero matrix gives zero. */
  lemma WeightedTotalOfZero(w: Matrix, m: Matrix)
    requires Weighs(w, m) && ZeroMatrix(m)
    ensures WeightedTotal(w, m) == 0.0
  {
    var rows := PairedDots(w, m);
    forall i | 0 <= i < |m|
      ensures rows[i] == 0.0
    {
      SumOfZeros(Products(w[i], m[i]));
    }
    SumOfZeros(rows);
  }
}
